=== FILE: README.md ===
# byte-opal UTXO ledger, modelled in Dafny

byte-opal is a toy cryptocurrency with an Express backend. This project models its backend ledger engine as pure Dafny functions and proves properties of them. The engine covers:

- blocks hashed with SHA-256 and mined by a proof-of-work nonce search;
- transactions in the unspent-output (UTXO) style, signed with secp256k1 keys;
- a pool of pending transactions that mining moves into a new block, behind a 100-unit reward transaction;
- a full-chain validity check;
- two wallet endpoints that reach the ledger: submitting a transfer, and listing a wallet's history.

The model follows the code as written, including the places where it departs from what its comments intend. Each of those departures is stated as a proved lemma:

- **Nonce off by one.** `mineBlock` increments the nonce after hashing. The stored nonce is therefore one past the nonce that produced the stored hash (`Blocks.Mine`, `Blocks.MinedAt`). The re-hash digests a different text from the stored hash, since the nonce differs (`Blocks.HashedTextsDiffer`). So as long as SHA-256 tells those two texts apart, every mined block fails the re-hash check of `isChainValid` (`Blocks.MinedBlockFailsRehash`, `LedgerProperties.MinedChainNeverValid`).
- **Spends seen too late.** The UTXO scan suppresses an output only when an input earlier in the scan, or in the output's own transaction, spends it. A spend seen later never removes an entry already listed (`Utxos.UnspentSoFarIsListed`, `Utxos.ScanOnlyAppends`). Consequences:
  - an output spent by a later transaction stays listed. So while every amount paid is non-negative, a balance never decreases (`Utxos.BalanceNeverDrops`, `LedgerProperties.SpendingNeverLowersBalance`). A negative amount is the one way down: it passes the route's `!amount` guard and the balance check of `addTransaction`, and once mined it lowers the recipient's balance by its size (`LedgerProperties.NegativePaymentLowersBalance`);
  - in the worked example A ends with 170, not 70 (`LedgerProperties.TransferScenario`);
  - a reward transaction's identifier depends only on the miner, so a miner's second reward has the same key as the first. Once the first is spent, every later reward to that miner is never listed (`Utxos.AlreadySpentAddsNothing`, `LedgerProperties.RepeatedRewardNeverListed`, `LedgerProperties.ScenarioRewardAgain`).
- **No `true` for signed transactions.** `verifySignature` falls off its loop and yields `undefined` for every transaction with inputs. A correctly signed transfer therefore yields `undefined` (`Wallets.SignedTransferYieldsUndefined`). Validation rejects every chain with a transfer after the genesis block (`LedgerProperties.TransferBlockNeverValid`).
- **Amounts of zero or less.** `addTransaction` does not reject an amount that is zero or negative. Such an amount yields a transaction with no inputs, which passes the signature check like a mining reward. A negative amount also creates change from nothing (`LedgerProperties.NonPositiveAmountMints`). The route's `!amount` guard rejects only 0.

## Structure

| file | module | models |
|---|---|---|
| js.dfy | `Js` | `Option`, `Result`, JavaScript's three-valued `true`/`false`/`undefined`, decimal rendering of numbers, the leading-zeros test |
| types.dfy | `Types` | inputs, outputs, transactions, blocks; the crypto primitives as a `Crypto` record of uninterpreted functions |
| wallet.dfy | `Wallets` | `sign`, `getPublicKey` (the `publicKey` field), `verifySignature` |
| blocks.dfy | `Blocks` | `calculateHash`, `mineBlock`, `createGenesisBlock` |
| utxo.dfy | `Utxos` | `findUTXOsForAddress`, `getBalance` |
| ledger.dfy | `Ledgers` | the constants, the `Transaction` constructor, `getLatestBlock`, `addTransaction`, `minePendingTransactions`, `isChainValid` |
| ledger_properties.dfy | `LedgerProperties` | properties relating several operations, and the worked example |
| history.dfy | `History` | how `GET /history` classifies transactions, and its sort |
| wallet_routes.dfy | `WalletRoutes` | `POST /transaction` with its sender guard, and `GET /history` |

Conventions:

- A JavaScript string field that is missing or falsy is written `""`. A missing `inputs` or `outputs` array is written `[]`.
- Timestamps are natural numbers (the `Date.now()` reading). The clock is a parameter `now`.
- Amounts are integers.
- A ledger operation returns a new `Ledger` value instead of mutating `this`.

## Model

| member | source | states |
|---|---|---|
| Js.HasLeadingZeros | backend/blockchain/blockchain.js:115 | the proof-of-work test holds exactly when the hash has at least `difficulty` characters and the first `difficulty` are all '0' |
| Blocks.CalculateHash | backend/blockchain/blockchain.js:16-26 | the digest has 64 characters when SHA-256 yields hex digests, and the stored `hash` field takes no part in it |
| Blocks.HashedTextsDiffer | backend/blockchain/blockchain.js:16-26 | two blocks with the same content and different nonces are hashed from different texts, because the decimal nonce ends the text and no two numbers share a decimal rendering |
| Blocks.SameContentSameHashes | backend/blockchain/blockchain.js:16-26 | the hash depends only on index, predecessor hash, timestamp, transactions and nonce: blocks that agree on the first four hash alike at every nonce, whatever their stored hash |
| Blocks.Mine | backend/blockchain/blockchain.js:28-33 | on success the block keeps its content, its hash has `difficulty` leading '0's and was computed with the stored nonce minus one, and that nonce is the first one tried that works; when the bounded search fails, no nonce in the range works |
| Blocks.CreateGenesisBlock | backend/blockchain/blockchain.js:84-88 | index 0, predecessor "0", no transactions, nonce 0, the clock reading as timestamp, and a hash equal to its own recomputed hash |
| Blocks.MinedBlockFailsRehash | backend/blockchain/blockchain.js:16-33 | a block left by `mineBlock` never equals its own recomputed hash when SHA-256 gives the texts at the hashed nonce and at the stored nonce different digests, because the stored nonce is one past the hashed one |
| Ledgers.TxId | backend/blockchain/blockchain.js:41 | the computed identifier is a 64-character digest when SHA-256 yields hex digests, so it is always truthy |
| Ledgers.NewTransaction | backend/blockchain/blockchain.js:36-43 | inputs and outputs are stored as given; the id is the given one when truthy and otherwise the digest of the inputs and outputs; there is no separate `hash`, so the transaction's key `id \|\| hash` is its id whenever that id is truthy |
| Ledgers.RewardTx | backend/blockchain/blockchain.js:211-214 | no inputs, a single output paying the mining reward to the miner, and an identifier that digests those |
| Ledgers.LatestBlock | backend/blockchain/blockchain.js:124-126 | the last block, present exactly when the chain is non-empty |
| Ledgers.NewLedger | backend/blockchain/blockchain.js:57-60 | over an empty store, the ledger is the genesis block alone with an empty pending pool |
| Ledgers.SelectCount | backend/blockchain/blockchain.js:171-181 | the greedy loop takes the shortest prefix of the unspent outputs whose amounts reach the amount: every shorter prefix falls short |
| Ledgers.TransferOutputs | backend/blockchain/blockchain.js:183-192 | the first output pays the recipient; there is a second output exactly when the inputs exceed the amount, and it returns the excess to the sender; the outputs add up to the inputs |
| Ledgers.UnsignedIgnoresSignatures | backend/blockchain/blockchain.js:194-198 | inputs that differ only in their signatures have the same unsigned form, and that form is unchanged by removing signatures again, so the identifier computed before signing stays the identifier of the signed transfer |
| Ledgers.BuildTransfer | backend/blockchain/blockchain.js:171-198 | the inputs are the shortest covering prefix of the sender's unspent outputs; each input names the sender and carries the signature over the identifier; the identifier digests the unsigned inputs and the outputs |
| Ledgers.AddTransaction | backend/blockchain/blockchain.js:163-208 | refused with 'Insufficient balance' exactly when the balance is below the amount, with the ledger untouched; otherwise the chain is unchanged and the pool grows by exactly the built transfer, at the end |
| Ledgers.CandidateBlock | backend/blockchain/blockchain.js:211-224 | the block to mine has the next index, links to the last block's hash, carries the clock reading, nonce 0 and no hash yet; it holds the reward first and then the oldest pending transactions in order, as many as fit in `blockSize`, or all of them when fewer |
| Ledgers.MinePendingTransactions | backend/blockchain/blockchain.js:210-245 | fails with `NoLatestBlock` exactly on an empty chain and otherwise only with `MiningExhausted`; on a non-empty chain it succeeds exactly when the nonce search on the candidate block succeeds, and appends the block that search found; on success it appends exactly one block (next index, linked to the last hash, the clock as timestamp, mined) holding the reward and then the oldest `blockSize - 1` pending transactions; the pool loses exactly those, and mining goes ahead with an empty pool |
| Ledgers.CheckBlock | backend/blockchain/blockchain.js:95-118 | a block passes exactly when its hash recomputes, every transaction's check is truthy, it links to its predecessor, and its hash meets the difficulty; each failure is reported exactly when every earlier check passes and that check fails: bad hash, then a transaction whose check is not truthy, then a broken link, then too few leading zeros |
| Ledgers.IsChainValid | backend/blockchain/blockchain.js:90-122 | valid exactly when every block from position 1 passes (the genesis block is never checked); otherwise reports the first failing position, with every block before it passing |
| Utxos.TransactionsAppend | backend/blockchain/blockchain.js:132-133 | the transactions the scan visits for a chain are those of any split of it, first part then second, so appending blocks only extends them |
| Utxos.EmitOutputs | backend/blockchain/blockchain.js:142-155 | a transaction contributes at most one entry per output: the entries name output indices in range, in strictly increasing order, and pay the queried address |
| Utxos.Step | backend/blockchain/blockchain.js:130-156 | one transaction of the scan only adds to the spent set and only appends to the list, and each entry it appends lists one of its outputs paying the address whose key is unspent, its own inputs counted |
| Utxos.Scan | backend/blockchain/blockchain.js:128-161 | only outputs paying the queried address enter the list |
| Utxos.FindUTXOsForAddress | backend/blockchain/blockchain.js:128-161 | every listed entry pays the queried address |
| Utxos.EmitOutputsNone | backend/blockchain/blockchain.js:142-155 | a transaction none of whose outputs pays the address contributes no entry |
| Utxos.StepStranger | backend/blockchain/blockchain.js:132-156 | a transaction with no input from the address and no output paying it changes neither the list nor the spent set |
| Utxos.StepPaysFirstOfTwo | backend/blockchain/blockchain.js:132-156 | a transaction with no input from the address whose first of two outputs pays it under an unspent key appends exactly that output |
| Utxos.ScanStrangerThenPayment | backend/blockchain/blockchain.js:128-161 | scanning a stranger's transaction and then such a payment raises the listed total by exactly the payment's amount, negative or not |
| Utxos.ScanSpentIsSpentBy | backend/blockchain/blockchain.js:132-140 | the spent set holds exactly the (transaction, index) references of inputs whose address is the queried one |
| Utxos.EmitOutputsSound | backend/blockchain/blockchain.js:142-155 | each entry a transaction contributes is one of its outputs paying the address whose key is not spent, and the entries come in output-index order |
| Utxos.EmitOutputsComplete | backend/blockchain/blockchain.js:142-155 | every output of the transaction that pays the address and whose key is not spent is contributed |
| Utxos.ScanOnlyAppends | backend/blockchain/blockchain.js:128-161 | the list for a sequence of transactions is a prefix of the list for any extension of it: entries are in scan order, and a later spend never withdraws an entry |
| Utxos.ContributionOf | backend/blockchain/blockchain.js:132-156 | transaction k contributes exactly its outputs paying the address that are not spent by inputs of transactions 0..k, its own inputs included because they are recorded first |
| Utxos.UnspentSoFarIsListed | backend/blockchain/blockchain.js:130-146 | an output paying the address that no input up to and including its own transaction spends is listed, whatever later transactions spend |
| Utxos.AlreadySpentAddsNothing | backend/blockchain/blockchain.js:142-155 | a transaction each of whose outputs paying the address has a key the address already spent adds nothing to the list |
| Utxos.SpentSoFarIsSkipped | backend/blockchain/blockchain.js:130-146 | an output whose key is already spent when the scan reaches it is not among the entries its transaction contributes |
| Utxos.SumAmountsAppend | backend/blockchain/blockchain.js:247-250 | the balance total over a concatenation is the sum of the totals |
| Utxos.SumAmountsNonNegative | backend/blockchain/blockchain.js:166 | entries with non-negative amounts add up to a non-negative total |
| Utxos.ScanTotalNeverDrops | backend/blockchain/blockchain.js:128-161 | scanning more transactions never lowers the listed total when they pay the address non-negative amounts |
| Utxos.GetBalance | backend/blockchain/blockchain.js:247-250 | the balance is never negative unless some transaction of the chain pays the address a negative amount |
| Utxos.BalanceNeverDrops | backend/blockchain/blockchain.js:247-250 | appending a block that pays the address non-negative amounts never lowers its balance |
| Wallets.Sign | backend/wallet/wallet.js:16-18 | the signature is made over the given message itself, so it verifies over that message under the wallet's public key when that key belongs to the private key and ECDSA works for it |
| Wallets.VerifyInputs | backend/wallet/wallet.js:30-50 | the loop answers false when some input lacks a signature or address or fails the check; when every input passes it falls off the end with `undefined`; it never answers true |
| Wallets.VerifySignature | backend/wallet/wallet.js:20-50 | true exactly for a transaction without inputs; false for inputs without an identifier; `undefined` exactly when there are inputs, an identifier, and every input passes |
| Wallets.SignedTransferYieldsUndefined | backend/wallet/wallet.js:16-50 | inputs that name the wallet's address and carry its signature over the identifier all pass, since `sign` signs the identifier without re-hashing; so the check answers `undefined` |
| LedgerProperties.NewLedgerWellFormed | backend/blockchain/blockchain.js:84-88 | a fresh ledger's chain has the shape every ledger keeps: genesis at 0, then numbered, linked, mined blocks |
| LedgerProperties.AddTransactionKeepsChain | backend/blockchain/blockchain.js:163-208 | admitting a transaction keeps the chain's shape |
| LedgerProperties.MiningKeepsChainWellFormed | backend/blockchain/blockchain.js:210-245 | mining keeps the chain's shape |
| LedgerProperties.MinedChainNeverValid | backend/blockchain/blockchain.js:96-99 | when SHA-256 gives block 1's texts at its hashed and stored nonces different digests, validation rejects every chain the ledger builds that has more than the genesis block, with a bad-hash report at position 1 |
| LedgerProperties.TransferBlockNeverValid | backend/blockchain/blockchain.js:102-107 | a chain holding a transaction with inputs after the genesis block is never valid: that block fails on its hash or its signatures |
| LedgerProperties.AddedTransferSignaturesCheck | backend/blockchain/blockchain.js:194-198 | a transfer `addTransaction` builds with a wallet's own key passes the check of every input, so it verifies as `undefined` |
| LedgerProperties.NonPositiveAmountMints | backend/blockchain/blockchain.js:163-194 | when the sender's balance is not negative, an amount of zero or less is admitted with no inputs, verifies as true like a reward, and when negative pays its absolute value to the sender as change |
| LedgerProperties.NegativePaymentLowersBalance | backend/blockchain/blockchain.js:163-194 | a mined block holding a reward to someone else and a negative-amount transfer with no inputs lowers the recipient's balance by exactly that amount |
| LedgerProperties.SpendingNeverLowersBalance | backend/blockchain/blockchain.js:128-161 | once the sender's own transfer is mined, the sender's balance is at least what it was before |
| LedgerProperties.RepeatedRewardNeverListed | backend/blockchain/blockchain.js:211-214 | the reward transaction is the same each time it is built for a miner, so once an input from the miner spends the reward, a later reward to the miner adds nothing to its list |
| LedgerProperties.ScenarioRewardAgain | backend/blockchain/blockchain.js:128-161 | A mines, sends 30 of the reward to B keeping 70, and mines again: A's list holds the spent first reward and the change, and not the second reward |
| LedgerProperties.TransferScenario | backend/blockchain/blockchain.js:128-250 | A mines (balance 100) and sends 30 to B, who mines: the transfer pays 30 to B and 70 back to A, and the balances end at 170 for A and 130 for B |
| History.FindOutput | backend/routes/walletRoutes.js:104-115 | `outputs.find`: the first output paying (or not paying) the address, and none when no output qualifies |
| History.Classify | backend/routes/walletRoutes.js:90-126 | an entry exactly when some input or output has the address; send exactly when some input has it, even if an output also pays it; the amount and counterparty of a send or receive as the route picks them; status 'confirmed', the transaction's id (or hash) and the block's timestamp |
| History.TouchingCountIsPositions | backend/routes/walletRoutes.js:89-127 | the count of touching transactions taken one position at a time is the number of positions holding a touching transaction |
| History.BlockEntries | backend/routes/walletRoutes.js:89-127 | as many entries as transactions touching the address, each carrying the block's timestamp; every touching transaction's entry is included, and every entry is the entry of some touching transaction |
| History.CollectEntries | backend/routes/walletRoutes.js:88-128 | as many entries as touching transactions over all blocks; every touching transaction of every block yields its entry, every entry is the entry of some touching transaction of some block, and carries that block's timestamp |
| History.PositionsClassifiedAsMeaning | backend/routes/walletRoutes.js:89-95 | a position is counted for an entry exactly when its transaction touches the address and the route's classification of it is that entry |
| History.BlockEntriesMultiplicity | backend/routes/walletRoutes.js:89-127 | each entry occurs in a block's list exactly as often as there are positions holding a touching transaction classified as that entry, so identical transactions give repeated entries and nothing else repeats |
| History.CollectEntriesMultiplicity | backend/routes/walletRoutes.js:88-128 | each entry occurs in the collected list exactly as often as there are touching transactions, over all blocks, classified as that entry |
| History.Insert | backend/routes/walletRoutes.js:130 | inserting into a newest-first list keeps it newest first and adds exactly the one entry |
| History.InsertKeepsTies | backend/routes/walletRoutes.js:130 | the inserted entry goes after the entries already present with the same timestamp |
| History.SortNewestFirst | backend/routes/walletRoutes.js:130 | the sorted list is a permutation of the input with timestamps non-increasing |
| History.SortKeepsTies | backend/routes/walletRoutes.js:130 | the sort is stable: entries with equal timestamps keep their order |
| WalletRoutes.PostTransaction | backend/routes/walletRoutes.js:38-68 | 201 exactly when key, recipient and a non-zero amount are given, the key's public key is the signed-in address, and the balance covers the amount; 403 exactly when the key belongs to another address; every refusal the model gives (the 400s for a missing field, a rejected key or too low a balance, and the 403) leaves the ledger unchanged, so the ledger changes only when the key belongs to the signed-in user; the store is assumed to accept every write (see "Left out") |
| WalletRoutes.AdmittedTransferSpendsOwnOutputs | backend/routes/walletRoutes.js:52-63 | an admitted transfer spends only outputs listed for the signed-in address, and each input names that address and carries the key's signature over the identifier |
| WalletRoutes.GetHistory | backend/routes/walletRoutes.js:81-130 | the history is newest first, a stable permutation of the collected entries, holds the entry of every transaction touching the address, holds nothing else, and has one entry per touching transaction |
| WalletRoutes.GetHistoryMultiplicity | backend/routes/walletRoutes.js:81-130 | the history holds each entry exactly as often as there are touching transactions in the chain classified as that entry |
| WalletRoutes.TransferHistoryEntries | backend/routes/walletRoutes.js:101-117 | an admitted transfer to someone else reads as a send of the amount to the recipient in the sender's history, and as a receive of the amount from the sender in the recipient's history |

## Left out

- Persistence is left out. This covers the Mongoose models and `initializeChain` (`backend/blockchain/blockchain.js:54-81`), `BlockModel.create`, `TransactionModel.create` and `deleteMany`. The in-memory state is the whole ledger.
- The stored block schema names its transaction list `transactions`, while the code writes and reads `data`. With the schema as written, `data` is dropped when a block is stored, so `GET /history` throws on `block.data.forEach` and answers 500 for every non-empty stored chain (`backend/routes/walletRoutes.js:88-89`, `132-135`). `WalletRoutes.GetHistory` models the evident intent instead: it reads a chain passed as a parameter, as if `data` were stored.
- WalletRoutes.PostTransaction: the store is assumed to accept every write. In the source, `TransactionModel` declares `hash` unique (`backend/model/transaction.js:4`). Two identical transfers built before a block is mined have the same id. The second is pushed to the pool (`backend/blockchain/blockchain.js:200`) before `TransactionModel.create` rejects the duplicate (`backend/blockchain/blockchain.js:201-205`). The route then answers 400 (`backend/routes/walletRoutes.js:65-68`), yet the pool already holds the duplicate. The model admits such a transfer with 201, and does not promise that a refusal caused by a failing write leaves the ledger unchanged.
- HTTP, JWT authentication and error logging are left out. The signed-in address is a parameter. `GET /balance` and `GET /mine` only forward to `getBalance` and `minePendingTransactions`. The `console.error` calls are dropped.
- SHA-256, `JSON.stringify` and secp256k1 ECDSA are uninterpreted functions in `Types.Crypto`. Properties that need them to behave (64-character digests, distinct digests for two given texts, signatures that verify) take that behaviour as an explicit precondition.
- Random key generation in the `Wallet` constructor is left out, and so is `hashData`, which the core never calls.
- Amounts are mathematical integers. JavaScript doubles, `parseFloat`, NaN and rounding are not modelled.
- The route's `!amount` guard is modelled on a numeric body; a string body such as `"0"` would be truthy.
- Missing and falsy string fields are both `""`. Every read in the core only tests truthiness or compares with a non-empty address, so nothing distinguishes the two.
- Inputs built by `addTransaction` before signing have no `signature` key. Here they carry `""`, and the serialisation that digests them is uninterpreted.
- The spent set's `"txId:index"` strings are modelled as (transaction, index) pairs. Different pairs can render to the same string only when an identifier contains ':', which SHA-256 hex digests never do.
- Blocks.Mine: the source search is unbounded. Here it tries at most `fuel` nonces, so a search that would succeed after more tries reads as `MiningExhausted`. The success contract is the source's.
- Ledgers.MinePendingTransactions: a chain with no blocks makes the source throw reading `.hash`, modelled as `NoLatestBlock`. An exhausted bounded search is `MiningExhausted`, which the source cannot reach.
- Each ledger operation is modelled as one atomic step. In the source, `minePendingTransactions` awaits `BlockModel.create` and `TransactionModel.deleteMany` between `chain.push` and re-slicing the pool (`backend/blockchain/blockchain.js:228-244`). A transfer that `addTransaction` appends during those awaits (`backend/blockchain/blockchain.js:200`) is dropped by the re-slice without being mined, when the pool held fewer than `blockSize - 1` transactions. Interleavings of concurrent requests are not modelled.
- `Array.prototype.sort` is stable in current JavaScript engines, and the history sort is modelled as a stable sort. The comparator `b.timestamp - a.timestamp` on the stored timestamp strings is modelled as numeric comparison.
- The root-level prototype, `backend/routes/userRoutes.js`, the auth and blockchain routes, and the frontend are not part of this model.

=== FILE: blocks.dfy ===
/** Blocks: the content hash, the proof-of-work search and the genesis block. */
module Blocks {
  import opened Js
  import opened Types

  /** The string `calculateHash()` digests: `index + previousHash +
      timestamp + JSON.stringify(data) + nonce`, every number rendered in
      decimal. The stored `hash` field takes no part. */
  function HashedText(c: Crypto, b: Block): string {
    NumberToString(b.index) + b.previousHash + NumberToString(b.timestamp) +
    c.jsonTxs(b.data) + NumberToString(b.nonce)
  }

  /** `calculateHash()`: the SHA-256 hex digest of the hashed text. */
  function CalculateHash(c: Crypto, b: Block): (h: string)
    ensures DigestsAreHex(c) ==> |h| == 64
    ensures forall stored :: c.sha256(HashedText(c, b.(hash := stored))) == h
  {
    c.sha256(HashedText(c, b))
  }

  /** Two blocks with the same content but different nonces are hashed from
      different strings: the decimal nonce closes the text and no two
      numbers share a decimal rendering. */
  lemma HashedTextsDiffer(c: Crypto, a: Block, b: Block)
    requires SameContent(a, b) && a.nonce != b.nonce
    ensures HashedText(c, a) != HashedText(c, b)
  {
    var prefix := NumberToString(b.index) + b.previousHash + NumberToString(b.timestamp) + c.jsonTxs(b.data);
    NumberToStringInjective(a.nonce, b.nonce);
    assert HashedText(c, a) == prefix + NumberToString(a.nonce);
    assert HashedText(c, b) == prefix + NumberToString(b.nonce);
    assert (prefix + NumberToString(a.nonce))[|prefix|..] == NumberToString(a.nonce);
    assert (prefix + NumberToString(b.nonce))[|prefix|..] == NumberToString(b.nonce);
  }

  /** The hash `b` would have with its nonce replaced by `n`. */
  function HashAtNonce(c: Crypto, b: Block, n: nat): string {
    CalculateHash(c, b.(nonce := n))
  }

  /** Same index, predecessor link, timestamp and transactions. */
  predicate SameContent(a: Block, b: Block) {
    a.index == b.index && a.previousHash == b.previousHash &&
    a.timestamp == b.timestamp && a.data == b.data
  }

  /** What `mineBlock` leaves behind: the stored hash meets the difficulty and
      was computed with the nonce one below the stored one, because the loop
      bumps the nonce after hashing. */
  predicate MinedAt(c: Crypto, b: Block, difficulty: nat) {
    b.nonce >= 1 && b.hash == HashAtNonce(c, b, b.nonce - 1) && HasLeadingZeros(b.hash, difficulty)
  }

  /** `mineBlock(difficulty)`: `do { hash = calculateHash(); nonce++ } while
      (hash lacks difficulty leading '0's)`. The search is unbounded in the
      source; here it tries at most `fuel` nonces and answers `None` when
      none of them succeeds. On success the nonce tried first that works is
      the one found, and the stored nonce is one past it. */
  function Mine(c: Crypto, b: Block, difficulty: nat, fuel: nat): (r: Option<Block>)
    decreases fuel
    ensures r.Some? ==> SameContent(r.value, b) && MinedAt(c, r.value, difficulty)
    ensures r.Some? ==> b.nonce < r.value.nonce <= b.nonce + fuel
    ensures r.Some? ==> r.value.hash == HashAtNonce(c, b, r.value.nonce - 1)
    ensures r.Some? ==> forall n :: b.nonce <= n < r.value.nonce - 1 ==>
      !HasLeadingZeros(HashAtNonce(c, b, n), difficulty)
    ensures r.None? ==> forall n :: b.nonce <= n < b.nonce + fuel ==>
      !HasLeadingZeros(HashAtNonce(c, b, n), difficulty)
  {
    if fuel == 0 then None
    else
      var h := CalculateHash(c, b);
      var next := b.(hash := h, nonce := b.nonce + 1);
      SameContentSameHashes(c, next, b);
      assert b.(nonce := b.nonce) == b;
      assert HashAtNonce(c, b, b.nonce) == h;
      if HasLeadingZeros(h, difficulty) then Some(next)
      else
        var r := Mine(c, next, difficulty, fuel - 1);
        var m := if r.Some? then r.value.nonce - 1 else next.nonce + fuel - 1;
        FailuresCarryBack(c, b, next, difficulty, m);
        r
  }

  /** A nonce search resumed one nonce later on the same content: when the
      nonce skipped failed and every nonce from the resumed one up to `m`
      fails, every nonce from the original one up to `m` fails. */
  lemma FailuresCarryBack(c: Crypto, b: Block, next: Block, difficulty: nat, m: nat)
    requires SameContent(next, b) && next.nonce == b.nonce + 1
    requires !HasLeadingZeros(HashAtNonce(c, b, b.nonce), difficulty)
    requires forall n :: next.nonce <= n < m ==> !HasLeadingZeros(HashAtNonce(c, next, n), difficulty)
    ensures forall n :: b.nonce <= n < m ==> !HasLeadingZeros(HashAtNonce(c, b, n), difficulty)
  {
    SameContentSameHashes(c, next, b);
  }

  /** Blocks with the same content have the same hash at every nonce: the
      stored hash and nonce take no part in the hashed string. */
  lemma SameContentSameHashes(c: Crypto, a: Block, b: Block)
    requires SameContent(a, b)
    ensures forall n :: HashAtNonce(c, a, n) == HashAtNonce(c, b, n)
  {
  }

  /** `createGenesisBlock()`: index 0, predecessor "0", no transactions,
      nonce 0, and a hash that matches its own content. */
  function CreateGenesisBlock(c: Crypto, now: nat): (g: Block)
    ensures g.index == 0 && g.previousHash == "0" && g.data == [] && g.nonce == 0
    ensures g.timestamp == now
    ensures g.hash == CalculateHash(c, g)
  {
    var g := Block(0, "0", now, [], "", 0);
    g.(hash := CalculateHash(c, g))
  }

  /** The off-by-one nonce makes a mined block fail its own re-hash: the
      stored hash digests the text with the nonce one below the stored one,
      the re-hash digests the text with the stored nonce, and these two texts
      differ; so whenever SHA-256 tells these two texts apart, the stored
      hash is not the recomputed one. */
  lemma MinedBlockFailsRehash(c: Crypto, b: Block, difficulty: nat)
    requires MinedAt(c, b, difficulty)
    requires DistinctDigests(c, HashedText(c, b.(nonce := b.nonce - 1)), HashedText(c, b))
    ensures b.hash != CalculateHash(c, b)
  {
    HashedTextsDiffer(c, b.(nonce := b.nonce - 1), b);
  }
}

=== FILE: history.dfy ===
/** The transaction history of one wallet (`GET /history`): every transaction
    touching the address becomes one entry, labelled as a send or a receive,
    and the entries are listed newest first. */
module History {
  import opened Js
  import opened Types

  datatype Kind = Send | Receive

  datatype Entry = Entry(hash: string, timestamp: nat, kind: Kind, counterparty: string, amount: int, status: string)

  /** Counterparty shown for a received transaction with no input address. */
  const MiningRewardLabel: string := "Mining Reward"
  const Confirmed: string := "confirmed"

  /** `tx.inputs?.some(input => input.address === address)`. */
  predicate IsSender(tx: Tx, address: string) {
    exists i :: 0 <= i < |tx.inputs| && tx.inputs[i].address == address
  }

  /** `tx.outputs?.some(output => output.address === address)`. */
  predicate IsRecipient(tx: Tx, address: string) {
    exists j :: 0 <= j < |tx.outputs| && tx.outputs[j].address == address
  }

  predicate Touches(tx: Tx, address: string) {
    IsSender(tx, address) || IsRecipient(tx, address)
  }

  /** `outputs.find(...)` from position `from` on: the first output whose
      address equals `address` when `toAddress` holds, or differs from it when
      it does not. */
  function FindOutput(outputs: seq<Output>, address: string, toAddress: bool, from: nat): (r: Option<nat>)
    requires from <= |outputs|
    decreases |outputs| - from
    ensures r.Some? ==> from <= r.value < |outputs| && (outputs[r.value].address == address) == toAddress
    ensures r.Some? ==> forall k :: from <= k < r.value ==> (outputs[k].address == address) != toAddress
    ensures r.None? ==> forall k :: from <= k < |outputs| ==> (outputs[k].address == address) != toAddress
  {
    if from == |outputs| then None
    else if (outputs[from].address == address) == toAddress then Some(from)
    else FindOutput(outputs, address, toAddress, from + 1)
  }

  /** The body of the inner `forEach`: no entry for a transaction that does
      not touch `address`; otherwise a 'send' entry when some input is from
      `address` (even if an output also pays it back), else a 'receive'. A
      send shows the first output paying someone else, or, when every output
      pays `address`, the first output's amount (0 when there is none) and
      `address` itself. A receive shows the first output paying `address` and
      the first input's address, or "Mining Reward" when that is missing. */
  function Classify(tx: Tx, address: string, timestamp: nat): (r: Option<Entry>)
    ensures r.Some? <==> Touches(tx, address)
    ensures r.Some? ==>
      && r.value.hash == tx.Ref() && r.value.timestamp == timestamp && r.value.status == Confirmed
      && (r.value.kind == Send <==> IsSender(tx, address))
    ensures r.Some? && IsSender(tx, address) ==>
      if exists k :: 0 <= k < |tx.outputs| && tx.outputs[k].address != address then
        exists k :: 0 <= k < |tx.outputs| && tx.outputs[k].address != address &&
          (forall m :: 0 <= m < k ==> tx.outputs[m].address == address) &&
          r.value.counterparty == tx.outputs[k].address && r.value.amount == tx.outputs[k].amount
      else
        r.value.counterparty == address &&
        r.value.amount == (if |tx.outputs| > 0 then tx.outputs[0].amount else 0)
    ensures r.Some? && !IsSender(tx, address) ==>
      && (exists k :: 0 <= k < |tx.outputs| && tx.outputs[k].address == address &&
            (forall m :: 0 <= m < k ==> tx.outputs[m].address != address) &&
            r.value.amount == tx.outputs[k].amount)
      && r.value.counterparty ==
           (if |tx.inputs| > 0 && tx.inputs[0].address != "" then tx.inputs[0].address else MiningRewardLabel)
  {
    if !IsSender(tx, address) && !IsRecipient(tx, address) then None
    else if IsSender(tx, address) then
      match FindOutput(tx.outputs, address, false, 0)
      case Some(k) => Some(Entry(tx.Ref(), timestamp, Send, tx.outputs[k].address, tx.outputs[k].amount, Confirmed))
      case None =>
        var amount := if |tx.outputs| > 0 then tx.outputs[0].amount else 0;
        Some(Entry(tx.Ref(), timestamp, Send, address, amount, Confirmed))
    else
      var amount := match FindOutput(tx.outputs, address, true, 0)
        case Some(k) => tx.outputs[k].amount
        case None => 0;
      var counterparty :=
        if |tx.inputs| > 0 && tx.inputs[0].address != "" then tx.inputs[0].address else MiningRewardLabel;
      Some(Entry(tx.Ref(), timestamp, Receive, counterparty, amount, Confirmed))
  }

  /** The positions of `txs` holding a transaction that touches `address`. */
  ghost function TouchingPositions(txs: seq<Tx>, address: string): set<nat> {
    set k: nat | k < |txs| && Touches(txs[k], address)
  }

  /** How many transactions of `txs` touch `address`, counted one position
      at a time. */
  ghost function TouchingCount(txs: seq<Tx>, address: string): nat {
    if |txs| == 0 then 0
    else
      var n := |txs| - 1;
      TouchingCount(txs[..n], address) + (if Touches(txs[n], address) then 1 else 0)
  }

  /** The count is the number of touching positions. */
  lemma {:induction false} TouchingCountIsPositions(txs: seq<Tx>, address: string)
    ensures TouchingCount(txs, address) == |TouchingPositions(txs, address)|
  {
    if |txs| > 0 {
      TouchingCountIsPositions(txs[..|txs| - 1], address);
      TouchingPositionsLast(txs, address);
    }
  }

  /** Counting the touching positions of `txs` one position at a time. */
  lemma TouchingPositionsLast(txs: seq<Tx>, address: string)
    requires |txs| > 0
    ensures var n := |txs| - 1;
      |TouchingPositions(txs, address)| ==
      |TouchingPositions(txs[..n], address)| + (if Touches(txs[n], address) then 1 else 0)
  {
    var n := |txs| - 1;
    var all := TouchingPositions(txs, address);
    var front := TouchingPositions(txs[..n], address);
    var last: set<nat> := if Touches(txs[n], address) then {n} else {};
    forall k ensures k in all <==> k in front + last {
      if 0 <= k < n {
        assert txs[..n][k] == txs[k];
      }
    }
    assert all == front + last;
    assert n !in front;
    assert front * last == {};
  }

  /** `e` is the entry of some transaction of `txs` that touches `address`. */
  ghost predicate EntryOfSome(txs: seq<Tx>, address: string, timestamp: nat, e: Entry) {
    exists k :: 0 <= k < |txs| && Touches(txs[k], address) && e == Classify(txs[k], address, timestamp).value
  }

  /** The entries of one block's transactions, in order: one per touching
      transaction, each the classification of such a transaction. */
  function BlockEntries(txs: seq<Tx>, address: string, timestamp: nat): (r: seq<Entry>)
    ensures |r| == TouchingCount(txs, address)
    ensures forall e :: e in r ==> e.timestamp == timestamp
    ensures forall k :: 0 <= k < |txs| && Touches(txs[k], address) ==> Classify(txs[k], address, timestamp).value in r
    ensures forall e :: e in r ==> EntryOfSome(txs, address, timestamp, e)
  {
    if |txs| == 0 then []
    else
      var n := |txs| - 1;
      var front := BlockEntries(txs[..n], address, timestamp);
      var last := Classify(txs[n], address, timestamp);
      var r := front + (if last.Some? then [last.value] else []);
      assert forall k :: 0 <= k < |txs| && Touches(txs[k], address) ==> Classify(txs[k], address, timestamp).value in r by {
        assert forall k :: 0 <= k < n ==> txs[..n][k] == txs[k];
      }
      assert forall e :: e in r ==> EntryOfSome(txs, address, timestamp, e) by {
        BlockEntriesSound(txs, address, timestamp, front);
      }
      r
  }

  /** Every entry of `txs[..n]`, and the one of `txs[n]`, comes from a
      touching transaction of `txs`. */
  lemma BlockEntriesSound(txs: seq<Tx>, address: string, timestamp: nat, front: seq<Entry>)
    requires |txs| > 0
    requires forall e :: e in front ==> EntryOfSome(txs[..|txs| - 1], address, timestamp, e)
    ensures var last := Classify(txs[|txs| - 1], address, timestamp);
      forall e :: e in front + (if last.Some? then [last.value] else []) ==> EntryOfSome(txs, address, timestamp, e)
  {
    var n := |txs| - 1;
    var last := Classify(txs[n], address, timestamp);
    forall e | e in front + (if last.Some? then [last.value] else [])
      ensures EntryOfSome(txs, address, timestamp, e)
    {
      if e in front {
        var k :| 0 <= k < |txs[..n]| && Touches(txs[..n][k], address) && e == Classify(txs[..n][k], address, timestamp).value;
        assert txs[..n][k] == txs[k];
      } else {
        assert Touches(txs[n], address);
      }
    }
  }

  /** How many transactions of the chain touch `address`, counted block by
      block (a transaction stored twice counts twice). */
  ghost function TouchingTransactions(chain: seq<Block>, address: string): nat {
    if |chain| == 0 then 0
    else
      var n := |chain| - 1;
      TouchingTransactions(chain[..n], address) + TouchingCount(chain[n].data, address)
  }

  /** `e` is the entry of some transaction, in some block of `chain`, that
      touches `address`. */
  ghost predicate EntryInChain(chain: seq<Block>, address: string, e: Entry) {
    exists i :: 0 <= i < |chain| && EntryOfSome(chain[i].data, address, chain[i].timestamp, e)
  }

  /** The two nested `forEach` loops: entries of every block in chain order. */
  function CollectEntries(chain: seq<Block>, address: string): (r: seq<Entry>)
    ensures |r| == TouchingTransactions(chain, address)
    ensures forall e :: e in r ==> exists i :: 0 <= i < |chain| && e.timestamp == chain[i].timestamp
    ensures forall i, k :: 0 <= i < |chain| && 0 <= k < |chain[i].data| && Touches(chain[i].data[k], address) ==>
      Classify(chain[i].data[k], address, chain[i].timestamp).value in r
    ensures forall e :: e in r ==> EntryInChain(chain, address, e)
  {
    if |chain| == 0 then []
    else
      var n := |chain| - 1;
      var front := CollectEntries(chain[..n], address);
      var block := BlockEntries(chain[n].data, address, chain[n].timestamp);
      var r := front + block;
      assert forall i :: 0 <= i < n ==> chain[..n][i] == chain[i];
      CollectEntriesSound(chain, address, front, block);
      r
  }

  /** Every entry collected from `chain[..n]` and from the last block comes
      from a touching transaction of `chain`. */
  lemma CollectEntriesSound(chain: seq<Block>, address: string, front: seq<Entry>, block: seq<Entry>)
    requires |chain| > 0
    requires forall e :: e in front ==> EntryInChain(chain[..|chain| - 1], address, e)
    requires forall e :: e in block ==>
      EntryOfSome(chain[|chain| - 1].data, address, chain[|chain| - 1].timestamp, e)
    ensures forall e :: e in front + block ==> EntryInChain(chain, address, e)
  {
    var n := |chain| - 1;
    forall e | e in front + block
      ensures EntryInChain(chain, address, e)
    {
      if e in front {
        var i :| 0 <= i < |chain[..n]| && EntryOfSome(chain[..n][i].data, address, chain[..n][i].timestamp, e);
        assert chain[..n][i] == chain[i];
      } else {
        assert EntryOfSome(chain[n].data, address, chain[n].timestamp, e);
      }
    }
  }

  /** The positions of `s` holding `x`. */
  ghost function PositionsOf<T>(s: seq<T>, x: T): set<nat> {
    set k: nat | k < |s| && s[k] == x
  }

  /** Counting the positions holding `x` one position at a time. */
  lemma PositionsOfLast<T>(s: seq<T>, x: T)
    requires |s| > 0
    ensures var n := |s| - 1;
      |PositionsOf(s, x)| == |PositionsOf(s[..n], x)| + (if s[n] == x then 1 else 0)
  {
    var n := |s| - 1;
    var last: set<nat> := if s[n] == x then {n} else {};
    assert forall k :: 0 <= k < n ==> s[..n][k] == s[k];
    assert PositionsOf(s, x) == PositionsOf(s[..n], x) + last;
    assert n !in PositionsOf(s[..n], x);
  }

  /** The classification of each transaction of `txs`, position by position. */
  ghost function Classifications(txs: seq<Tx>, address: string, timestamp: nat): (cs: seq<Option<Entry>>)
    ensures |cs| == |txs|
  {
    seq(|txs|, k requires 0 <= k < |txs| => Classify(txs[k], address, timestamp))
  }

  /** The positions of `txs` holding a transaction classified as `e`; by the
      contract of `Classify`, exactly the touching transactions whose entry
      is `e`. */
  ghost function PositionsClassifiedAs(txs: seq<Tx>, address: string, timestamp: nat, e: Entry): set<nat> {
    PositionsOf(Classifications(txs, address, timestamp), Some(e))
  }

  /** A position is counted exactly when its transaction touches `address`
      and is classified as `e`. */
  lemma PositionsClassifiedAsMeaning(txs: seq<Tx>, address: string, timestamp: nat, e: Entry, k: nat)
    ensures k in PositionsClassifiedAs(txs, address, timestamp, e) <==>
      k < |txs| && Touches(txs[k], address) && Classify(txs[k], address, timestamp).value == e
  {
  }

  /** Counting the positions classified as `e` one position at a time. */
  lemma PositionsClassifiedAsLast(txs: seq<Tx>, address: string, timestamp: nat, e: Entry)
    requires |txs| > 0
    ensures var n := |txs| - 1;
      |PositionsClassifiedAs(txs, address, timestamp, e)| ==
      |PositionsClassifiedAs(txs[..n], address, timestamp, e)| +
      (if Classify(txs[n], address, timestamp) == Some(e) then 1 else 0)
  {
    var n := |txs| - 1;
    var cs := Classifications(txs, address, timestamp);
    assert Classifications(txs[..n], address, timestamp) == cs[..n];
    PositionsOfLast(cs, Some(e));
  }

  /** Each entry occurs in a block's list exactly as many times as there are
      touching transactions classified as it, so two identical transfers in
      one block give two equal entries and nothing else is repeated. */
  lemma {:induction false} BlockEntriesMultiplicity(txs: seq<Tx>, address: string, timestamp: nat, e: Entry)
    ensures multiset(BlockEntries(txs, address, timestamp))[e] == |PositionsClassifiedAs(txs, address, timestamp, e)|
  {
    if |txs| > 0 {
      var n := |txs| - 1;
      BlockEntriesMultiplicity(txs[..n], address, timestamp, e);
      PositionsClassifiedAsLast(txs, address, timestamp, e);
    }
  }

  /** How many transactions of the chain touch `address` and are classified
      as `e`, counted block by block. */
  ghost function ChainClassifiedAs(chain: seq<Block>, address: string, e: Entry): nat {
    if |chain| == 0 then 0
    else
      var n := |chain| - 1;
      ChainClassifiedAs(chain[..n], address, e) + |PositionsClassifiedAs(chain[n].data, address, chain[n].timestamp, e)|
  }

  /** The chain-level count: each entry is collected once per transaction,
      in any block, that is classified as it. */
  lemma {:induction false} CollectEntriesMultiplicity(chain: seq<Block>, address: string, e: Entry)
    ensures multiset(CollectEntries(chain, address))[e] == ChainClassifiedAs(chain, address, e)
  {
    if |chain| > 0 {
      var n := |chain| - 1;
      CollectEntriesMultiplicity(chain[..n], address, e);
      BlockEntriesMultiplicity(chain[n].data, address, chain[n].timestamp, e);
    }
  }

  // ---------------------------------------------------------------------
  // Newest first

  ghost predicate NewestFirst(s: seq<Entry>) {
    forall i, j :: 0 <= i < j < |s| ==> s[i].timestamp >= s[j].timestamp
  }

  /** The entries of `s` carrying timestamp `t`, in their order in `s`. */
  function WithTimestamp(s: seq<Entry>, t: nat): seq<Entry> {
    if |s| == 0 then []
    else (if s[0].timestamp == t then [s[0]] else []) + WithTimestamp(s[1..], t)
  }

  lemma {:induction false} WithTimestampAppend(s: seq<Entry>, u: seq<Entry>, t: nat)
    ensures WithTimestamp(s + u, t) == WithTimestamp(s, t) + WithTimestamp(u, t)
  {
    if |s| > 0 {
      assert (s + u)[1..] == s[1..] + u;
      WithTimestampAppend(s[1..], u, t);
    } else {
      assert s + u == u;
    }
  }

  /** Nothing in a newest-first list whose head is older than `t` has
      timestamp `t`. */
  lemma {:induction false} OlderListHasNone(s: seq<Entry>, t: nat)
    requires NewestFirst(s)
    requires |s| > 0 ==> s[0].timestamp < t
    ensures WithTimestamp(s, t) == []
  {
    if |s| > 0 {
      OlderListHasNone(s[1..], t);
    }
  }

  /** Places `e` after every entry at least as new as it, before the first
      older one. */
  function Insert(s: seq<Entry>, e: Entry): (r: seq<Entry>)
    requires NewestFirst(s)
    ensures NewestFirst(r)
    ensures multiset(r) == multiset(s) + multiset{e}
    ensures |r| == |s| + 1
    ensures |r| > 0 && (|s| > 0 ==> r[0] == s[0] || r[0] == e)
  {
    if |s| == 0 then [e]
    else if s[0].timestamp < e.timestamp then [e] + s
    else
      var rest := Insert(s[1..], e);
      assert s == [s[0]] + s[1..];
      [s[0]] + rest
  }

  /** Inserting keeps the order among entries of equal timestamp, with `e`
      after the ones already there. */
  lemma {:induction false} InsertKeepsTies(s: seq<Entry>, e: Entry, t: nat)
    requires NewestFirst(s)
    ensures WithTimestamp(Insert(s, e), t) == WithTimestamp(s, t) + (if e.timestamp == t then [e] else [])
  {
    if |s| == 0 {
    } else if s[0].timestamp < e.timestamp {
      var r := [e] + s;
      assert r[1..] == s;
      if e.timestamp == t {
        OlderListHasNone(s, t);
      }
    } else {
      InsertKeepsTies(s[1..], e, t);
      var r := [s[0]] + Insert(s[1..], e);
      assert r[1..] == Insert(s[1..], e);
    }
  }

  /** `history.sort((a, b) => b.timestamp - a.timestamp)`, stable as
      `Array.prototype.sort` is: newest first, and entries with equal
      timestamps in their original order. */
  function SortNewestFirst(s: seq<Entry>): (r: seq<Entry>)
    ensures NewestFirst(r)
    ensures multiset(r) == multiset(s)
  {
    if |s| == 0 then []
    else
      var n := |s| - 1;
      assert s == s[..n] + [s[n]];
      Insert(SortNewestFirst(s[..n]), s[n])
  }

  /** Taking the entries of one timestamp, one entry at a time from the back. */
  lemma WithTimestampLast(s: seq<Entry>, t: nat)
    requires |s| > 0
    ensures WithTimestamp(s, t) ==
      WithTimestamp(s[..|s| - 1], t) + (if s[|s| - 1].timestamp == t then [s[|s| - 1]] else [])
  {
    var n := |s| - 1;
    assert s == s[..n] + [s[n]];
    WithTimestampAppend(s[..n], [s[n]], t);
    assert [s[n]][1..] == [];
  }

  /** The sort is stable: for every timestamp, the entries carrying it appear
      in the same order before and after sorting. */
  lemma {:induction false} SortKeepsTies(s: seq<Entry>, t: nat)
    ensures WithTimestamp(SortNewestFirst(s), t) == WithTimestamp(s, t)
  {
    if |s| > 0 {
      var n := |s| - 1;
      var sorted := SortNewestFirst(s[..n]);
      SortKeepsTies(s[..n], t);
      InsertKeepsTies(sorted, s[n], t);
      WithTimestampLast(s, t);
    }
  }
}

=== FILE: js.dfy ===
/** JavaScript runtime notions the ledger relies on: optional values, the
    three-valued result of a function that may fall off its end, the decimal
    rendering of non-negative numbers, and the leading-zeros test used for
    proof-of-work. */
module Js {

  datatype Option<+T> = None | Some(value: T)

  datatype Result<+T, +E> = Ok(value: T) | Err(error: E)

  /** What a JavaScript function returning a boolean can hand back when one of
      its paths ends without a `return`. */
  datatype JsValue = JsTrue | JsFalse | JsUndefined {
    /** `!!v` in JavaScript. */
    predicate Truthy() {
      this == JsTrue
    }
  }

  predicate IsDigit(ch: char) {
    '0' <= ch <= '9'
  }

  function DigitChar(d: nat): (ch: char)
    requires d < 10
    ensures IsDigit(ch)
  {
    "0123456789"[d]
  }

  /** `String(n)` for a non-negative integer: its decimal digits, most
      significant first, with no leading zero except for 0 itself. */
  function NumberToString(n: nat): (s: string)
    ensures 1 <= |s|
    ensures forall i :: 0 <= i < |s| ==> IsDigit(s[i])
    ensures s[0] == '0' <==> n == 0
  {
    if n < 10 then [DigitChar(n)]
    else NumberToString(n / 10) + [DigitChar(n % 10)]
  }

  function DigitValue(ch: char): nat {
    if IsDigit(ch) then (ch - '0') as nat else 0
  }

  /** Reads a string of decimal digits back as a number. */
  function ParseDecimal(s: string): nat {
    if |s| == 0 then 0 else ParseDecimal(s[..|s| - 1]) * 10 + DigitValue(s[|s| - 1])
  }

  /** Decimal rendering round trip: reading back the digits gives the number. */
  lemma {:induction false} NumberToStringRoundTrip(n: nat)
    ensures ParseDecimal(NumberToString(n)) == n
  {
    if n >= 10 {
      var s := NumberToString(n);
      assert s[..|s| - 1] == NumberToString(n / 10);
      NumberToStringRoundTrip(n / 10);
    }
  }

  /** Distinct numbers render as distinct strings. */
  lemma NumberToStringInjective(m: nat, n: nat)
    requires m != n
    ensures NumberToString(m) != NumberToString(n)
  {
    NumberToStringRoundTrip(m);
    NumberToStringRoundTrip(n);
  }

  /** `Array(d + 1).join("0")`: the string of `d` zero characters. */
  function Zeros(d: nat): string {
    seq(d, _ => '0')
  }

  /** `h.substring(0, d) === Array(d + 1).join("0")`; `substring` clamps its
      end to the length of `h`, so a hash shorter than `d` never passes. */
  predicate HasLeadingZeros(h: string, d: nat)
    ensures HasLeadingZeros(h, d) <==> d <= |h| && forall i :: 0 <= i < d ==> h[i] == '0'
  {
    (if d <= |h| then h[..d] else h) == Zeros(d)
  }
}

=== FILE: ledger.dfy ===
/** The ledger (`BlockChain`): the chain, the pending pool, transaction
    admission, mining of pending transactions and full-chain validation. Each
    operation is a pure transition from one ledger value to the next. */
module Ledgers {
  import opened Js
  import opened Types
  import opened Wallets
  import opened Blocks
  import opened Utxos

  /** Leading '0' characters required of a block hash. */
  const Difficulty: nat := 1
  /** Amount paid to the miner by the reward transaction of each block. */
  const MiningReward: int := 100
  /** Transactions per block, the reward transaction included. */
  const BlockSize: nat := 5

  datatype Ledger = Ledger(chain: seq<Block>, pendingTransactions: seq<Tx>)

  datatype LedgerError =
    | InsufficientBalance  // `addTransaction` throws 'Insufficient balance'
    | NoLatestBlock        // `getLatestBlock()` is undefined on an empty chain
    | MiningExhausted      // the bounded proof-of-work search ran out of tries

  function Min(a: nat, b: nat): nat {
    if a <= b then a else b
  }

  // ---------------------------------------------------------------------
  // Transactions

  /** `sha256(JSON.stringify(inputs) + JSON.stringify(outputs))`. */
  function TxId(c: Crypto, inputs: seq<Input>, outputs: seq<Output>): (id: string)
    ensures DigestsAreHex(c) ==> |id| == 64
  {
    c.sha256(c.jsonInputs(inputs) + c.jsonOutputs(outputs))
  }

  /** `new Transaction(inputs, outputs, id)`: a truthy `id` is kept as given,
      otherwise the identifier is the digest of the inputs and outputs. */
  function NewTransaction(c: Crypto, inputs: seq<Input>, outputs: seq<Output>, id: string): (tx: Tx)
    ensures tx.inputs == inputs && tx.outputs == outputs
    ensures tx.id == (if id != "" then id else TxId(c, inputs, outputs)) && tx.hash == ""
    ensures id != "" || DigestsAreHex(c) ==> tx.Ref() == tx.id
  {
    Tx(if id != "" then id else TxId(c, inputs, outputs), "", inputs, outputs)
  }

  /** The same inputs with their signatures removed: what the identifier of a
      transaction built by `addTransaction` was computed over. */
  function Unsigned(inputs: seq<Input>): seq<Input> {
    seq(|inputs|, i requires 0 <= i < |inputs| => inputs[i].(signature := ""))
  }

  /** Two input lists that differ only in their signatures have the same
      unsigned form, and removing signatures twice removes nothing more: the
      identifier of a transfer does not depend on how it was signed. */
  lemma UnsignedIgnoresSignatures(a: seq<Input>, b: seq<Input>)
    requires |a| == |b|
    requires forall i :: 0 <= i < |a| ==>
      a[i].transactionId == b[i].transactionId && a[i].outputIndex == b[i].outputIndex && a[i].address == b[i].address
    ensures Unsigned(a) == Unsigned(b)
    ensures Unsigned(Unsigned(a)) == Unsigned(a)
  {
  }

  function OutputTotal(outputs: seq<Output>): int {
    if |outputs| == 0 then 0 else OutputTotal(outputs[..|outputs| - 1]) + outputs[|outputs| - 1].amount
  }

  /** The reward transaction that opens every mined block. */
  function RewardTx(c: Crypto, miner: string): (tx: Tx)
    ensures tx.inputs == [] && tx.outputs == [Output(MiningReward, miner)]
    ensures tx.id == TxId(c, [], [Output(MiningReward, miner)])
  {
    NewTransaction(c, [], [Output(MiningReward, miner)], "")
  }

  // ---------------------------------------------------------------------
  // Chain access

  /** `getLatestBlock()`: the last block, absent on an empty chain. */
  function LatestBlock(chain: seq<Block>): (r: Option<Block>)
    ensures r.Some? <==> |chain| > 0
    ensures r.Some? ==> r.value in chain && r.value == chain[|chain| - 1]
  {
    if |chain| == 0 then None else Some(chain[|chain| - 1])
  }

  /** A fresh ledger over an empty block store: the genesis block alone and
      no pending transactions. */
  function NewLedger(c: Crypto, now: nat): (l: Ledger)
    ensures |l.chain| == 1 && l.pendingTransactions == []
    ensures l.chain[0] == CreateGenesisBlock(c, now)
  {
    Ledger([CreateGenesisBlock(c, now)], [])
  }

  // ---------------------------------------------------------------------
  // Coin selection and transaction admission

  /** The greedy loop of `addTransaction`: starting with `i` outputs taken
      whose amounts total `total`, keep taking the next output while the total
      is below `amount`. The answer is the number of outputs taken. */
  function SelectCount(utxos: seq<Utxo>, amount: int, i: nat, total: int): (k: nat)
    requires i <= |utxos| && total == SumAmounts(utxos[..i])
    decreases |utxos| - i
    ensures i <= k <= |utxos|
    ensures forall j :: i <= j < k ==> SumAmounts(utxos[..j]) < amount
    ensures k < |utxos| ==> SumAmounts(utxos[..k]) >= amount
  {
    if i == |utxos| || total >= amount then i
    else
      assert utxos[..i + 1][..i] == utxos[..i];
      SelectCount(utxos, amount, i + 1, total + utxos[i].amount)
  }

  /** The outputs of a transfer: the payment, then change back to the sender
      when the inputs exceed the amount. */
  function TransferOutputs(amount: int, recipient: string, totalInput: int, sender: string): (outputs: seq<Output>)
    requires totalInput >= amount
    ensures 1 <= |outputs| <= 2
    ensures outputs[0] == Output(amount, recipient)
    ensures |outputs| == 2 <==> totalInput > amount
    ensures |outputs| == 2 ==> outputs[1] == Output(totalInput - amount, sender)
    ensures OutputTotal(outputs) == totalInput
  {
    var pay := [Output(amount, recipient)];
    assert pay[..0] == [];
    var outputs := pay + (if totalInput > amount then [Output(totalInput - amount, sender)] else []);
    assert OutputTotal(pay) == amount;
    assert outputs[..1] == pay;
    assert |outputs| == 2 ==> OutputTotal(outputs) == OutputTotal(pay) + outputs[1].amount;
    outputs
  }

  /** The transfer `addTransaction` builds from the sender's unspent outputs
      once the balance check has passed: the shortest prefix of `utxos` whose
      amounts reach `amount` becomes the inputs, the outputs pay `amount` to the
      recipient and any excess back to the sender (so they add up to what the
      inputs bring in), the identifier is computed over the unsigned inputs and
      the outputs, and then every input is signed over that identifier. */
  function BuildTransfer(c: Crypto, utxos: seq<Utxo>, w: Wallet, recipient: string, amount: int): (tx: Tx)
    requires SumAmounts(utxos) >= amount
    ensures |tx.inputs| <= |utxos|
    ensures forall i :: 0 <= i < |tx.inputs| ==>
      tx.inputs[i] == Input(utxos[i].transactionId, utxos[i].outputIndex, w.publicKey, Sign(c, w, tx.id))
    ensures SumAmounts(utxos[..|tx.inputs|]) >= amount
    ensures forall j :: 0 <= j < |tx.inputs| ==> SumAmounts(utxos[..j]) < amount
    ensures
      var totalInput := SumAmounts(utxos[..|tx.inputs|]);
      && 1 <= |tx.outputs| <= 2
      && tx.outputs[0] == Output(amount, recipient)
      && (|tx.outputs| == 2 <==> totalInput > amount)
      && (|tx.outputs| == 2 ==> tx.outputs[1] == Output(totalInput - amount, w.publicKey))
      && OutputTotal(tx.outputs) == totalInput
    ensures tx.id == TxId(c, Unsigned(tx.inputs), tx.outputs) && tx.hash == ""
  {
    var sender := w.publicKey;
    var k := SelectCount(utxos, amount, 0, 0);
    assert utxos[..|utxos|] == utxos;
    var totalInput := SumAmounts(utxos[..k]);
    assert totalInput >= amount;
    var inputs := seq(k, i requires 0 <= i < k => Input(utxos[i].transactionId, utxos[i].outputIndex, sender, ""));
    var outputs := TransferOutputs(amount, recipient, totalInput, sender);
    var tx := NewTransaction(c, inputs, outputs, "");
    var signed := seq(k, i requires 0 <= i < k => inputs[i].(signature := Sign(c, w, tx.id)));
    assert Unsigned(signed) == inputs;
    tx.(inputs := signed)
  }

  /** `addTransaction(senderWallet, recipientAddress, amount)`: refuse, leaving
      the ledger as it is, when the sender's balance is below `amount`;
      otherwise append the transfer built from the sender's unspent outputs to
      the pending pool. The chain is not touched. */
  function AddTransaction(c: Crypto, l: Ledger, w: Wallet, recipient: string, amount: int)
    : (r: Result<(Ledger, Tx), LedgerError>)
    ensures r.Err? <==> GetBalance(l.chain, w.publicKey) < amount
    ensures r.Err? ==> r.error == InsufficientBalance
    ensures r.Ok? ==> r.value.0.chain == l.chain
    ensures r.Ok? ==> r.value.0.pendingTransactions == l.pendingTransactions + [r.value.1]
    ensures r.Ok? ==> r.value.1 == BuildTransfer(c, FindUTXOsForAddress(l.chain, w.publicKey), w, recipient, amount)
  {
    var utxos := FindUTXOsForAddress(l.chain, w.publicKey);
    if SumAmounts(utxos) < amount then Err(InsufficientBalance)
    else
      var tx := BuildTransfer(c, utxos, w, recipient, amount);
      Ok((l.(pendingTransactions := l.pendingTransactions + [tx]), tx))
  }

  // ---------------------------------------------------------------------
  // Mining

  /** The block `minePendingTransactions` builds before the search: next index,
      linked to the last block, the reward first and then up to
      `BlockSize - 1` pending transactions, oldest first. */
  function CandidateBlock(c: Crypto, l: Ledger, miner: string, now: nat): (b: Block)
    requires |l.chain| > 0
    ensures b.index == |l.chain| && b.previousHash == l.chain[|l.chain| - 1].hash
    ensures b.timestamp == now && b.hash == "" && b.nonce == 0
    ensures 1 <= |b.data| <= BlockSize && |b.data| <= |l.pendingTransactions| + 1
    ensures b.data[0] == RewardTx(c, miner)
    ensures b.data[1..] == l.pendingTransactions[..|b.data| - 1]
    ensures |b.data| == BlockSize || b.data[1..] == l.pendingTransactions
  {
    var take := Min(BlockSize - 1, |l.pendingTransactions|);
    Block(|l.chain|, l.chain[|l.chain| - 1].hash, now,
          [RewardTx(c, miner)] + l.pendingTransactions[..take], "", 0)
  }

  /** `minePendingTransactions(minerAddress)`, with `now` standing for
      `Date.now()` and at most `fuel` nonces tried. Mining goes ahead with an
      empty pool; on success exactly one block is appended and the included
      transactions leave the pool. */
  function MinePendingTransactions(c: Crypto, l: Ledger, miner: string, now: nat, fuel: nat)
    : (r: Result<Ledger, LedgerError>)
    ensures r == Err(NoLatestBlock) <==> |l.chain| == 0
    ensures r.Ok? ==> |r.value.chain| == |l.chain| + 1 && r.value.chain[..|l.chain|] == l.chain
    ensures r.Ok? ==>
      var take := Min(BlockSize - 1, |l.pendingTransactions|);
      var b := r.value.chain[|l.chain|];
      && b.index == |l.chain|
      && b.previousHash == l.chain[|l.chain| - 1].hash
      && b.timestamp == now
      && b.data == [RewardTx(c, miner)] + l.pendingTransactions[..take]
      && r.value.pendingTransactions == l.pendingTransactions[take..]
      && MinedAt(c, b, Difficulty)
    ensures r.Ok? ==>
      var b := r.value.chain[|l.chain|];
      && 1 <= |b.data| <= BlockSize
      && b.data[1..] + r.value.pendingTransactions == l.pendingTransactions
    ensures r.Err? ==> r.error == NoLatestBlock || r.error == MiningExhausted
    ensures |l.chain| > 0 ==> (r.Ok? <==> Mine(c, CandidateBlock(c, l, miner, now), Difficulty, fuel).Some?)
    ensures r.Ok? ==> r.value.chain[|l.chain|] == Mine(c, CandidateBlock(c, l, miner, now), Difficulty, fuel).value
    ensures r == Err(MiningExhausted) ==>
      forall n :: 0 <= n < fuel ==>
        !HasLeadingZeros(HashAtNonce(c, CandidateBlock(c, l, miner, now), n), Difficulty)
  {
    if |l.chain| == 0 then Err(NoLatestBlock)
    else
      var take := Min(BlockSize - 1, |l.pendingTransactions|);
      var candidate := CandidateBlock(c, l, miner, now);
      match Mine(c, candidate, Difficulty, fuel)
      case None => Err(MiningExhausted)
      case Some(b) =>
        assert b.data[1..] == l.pendingTransactions[..take];
        assert l.pendingTransactions[..take] + l.pendingTransactions[take..] == l.pendingTransactions;
        Ok(Ledger(l.chain + [b], l.pendingTransactions[take..]))
  }

  // ---------------------------------------------------------------------
  // Validation

  datatype Violation = BadHash | BadSignature | BadPreviousHash | BadProofOfWork

  /** The outcome of `isChainValid()`, with what its log line reports on a
      failure: the position checked, the block's own `index` and the reason. */
  datatype ChainCheck = Valid | Invalid(position: nat, blockIndex: nat, reason: Violation)

  /** The four checks applied to every block after the genesis block. */
  ghost predicate BlockAccepted(c: Crypto, prev: Block, cur: Block) {
    && cur.hash == CalculateHash(c, cur)
    && (forall k :: 0 <= k < |cur.data| ==> VerifySignature(c, cur.data[k]).Truthy())
    && cur.previousHash == prev.hash
    && HasLeadingZeros(cur.hash, Difficulty)
  }

  /** Every block from position 1 on passes; the genesis block is never checked. */
  ghost predicate ChainValid(c: Crypto, chain: seq<Block>) {
    forall i :: 1 <= i < |chain| ==> BlockAccepted(c, chain[i - 1], chain[i])
  }

  /** The checks on one block, in the order the loop body makes them; the
      first that fails is reported. */
  function CheckBlock(c: Crypto, prev: Block, cur: Block): (r: Option<Violation>)
    ensures r.None? <==> BlockAccepted(c, prev, cur)
    ensures r == Some(BadHash) <==> cur.hash != CalculateHash(c, cur)
    ensures r == Some(BadSignature) <==>
      && cur.hash == CalculateHash(c, cur)
      && exists k :: 0 <= k < |cur.data| && !VerifySignature(c, cur.data[k]).Truthy()
    ensures r == Some(BadPreviousHash) <==>
      && cur.hash == CalculateHash(c, cur)
      && (forall k :: 0 <= k < |cur.data| ==> VerifySignature(c, cur.data[k]).Truthy())
      && cur.previousHash != prev.hash
    ensures r == Some(BadProofOfWork) <==>
      && cur.hash == CalculateHash(c, cur)
      && (forall k :: 0 <= k < |cur.data| ==> VerifySignature(c, cur.data[k]).Truthy())
      && cur.previousHash == prev.hash
      && !HasLeadingZeros(cur.hash, Difficulty)
  {
    if cur.hash != CalculateHash(c, cur) then Some(BadHash)
    else if exists k :: 0 <= k < |cur.data| && !VerifySignature(c, cur.data[k]).Truthy() then Some(BadSignature)
    else if cur.previousHash != prev.hash then Some(BadPreviousHash)
    else if !HasLeadingZeros(cur.hash, Difficulty) then Some(BadProofOfWork)
    else None
  }

  /** `isChainValid()`: scans the chain from position 1 and stops at the first
      block that fails a check. It reads the chain and changes nothing. */
  method IsChainValid(c: Crypto, chain: seq<Block>) returns (r: ChainCheck)
    ensures r.Valid? <==> ChainValid(c, chain)
    ensures r.Invalid? ==>
      && 1 <= r.position < |chain|
      && r.blockIndex == chain[r.position].index
      && CheckBlock(c, chain[r.position - 1], chain[r.position]) == Some(r.reason)
      && forall i :: 1 <= i < r.position ==> BlockAccepted(c, chain[i - 1], chain[i])
  {
    var i := 1;
    while i < |chain|
      invariant 1 <= i
      invariant forall j :: 1 <= j < i && j < |chain| ==> BlockAccepted(c, chain[j - 1], chain[j])
    {
      var v := CheckBlock(c, chain[i - 1], chain[i]);
      if v.Some? {
        return Invalid(i, chain[i].index, v.value);
      }
      i := i + 1;
    }
    return Valid;
  }
}

=== FILE: ledger_properties.dfy ===
/** Properties that relate several ledger operations: the shape every ledger
    built by the operations keeps, what validation makes of such a ledger,
    and what spending does to balances. */
module LedgerProperties {
  import opened Js
  import opened Types
  import opened Wallets
  import opened Blocks
  import opened Utxos
  import opened Ledgers

  /** The shape of every chain the ledger builds: a genesis block at position
      0, then blocks numbered by position, each linked to its predecessor and
      left by the proof-of-work search (hash meeting the difficulty, computed
      with the nonce one below the stored one). */
  ghost predicate WellFormedChain(c: Crypto, chain: seq<Block>) {
    && |chain| >= 1
    && chain[0].index == 0 && chain[0].previousHash == "0" && chain[0].data == []
    && chain[0].hash == CalculateHash(c, chain[0])
    && forall i :: 1 <= i < |chain| ==>
         && chain[i].index == i
         && chain[i].previousHash == chain[i - 1].hash
         && MinedAt(c, chain[i], Difficulty)
  }

  lemma NewLedgerWellFormed(c: Crypto, now: nat)
    ensures WellFormedChain(c, NewLedger(c, now).chain)
  {
  }

  /** Admitting a transaction leaves the chain alone. */
  lemma AddTransactionKeepsChain(c: Crypto, l: Ledger, w: Wallet, recipient: string, amount: int)
    requires WellFormedChain(c, l.chain)
    requires AddTransaction(c, l, w, recipient, amount).Ok?
    ensures WellFormedChain(c, AddTransaction(c, l, w, recipient, amount).value.0.chain)
  {
  }

  /** Mining keeps the chain well formed. */
  lemma MiningKeepsChainWellFormed(c: Crypto, l: Ledger, miner: string, now: nat, fuel: nat)
    requires WellFormedChain(c, l.chain)
    requires MinePendingTransactions(c, l, miner, now, fuel).Ok?
    ensures WellFormedChain(c, MinePendingTransactions(c, l, miner, now, fuel).value.chain)
  {
    var chain' := MinePendingTransactions(c, l, miner, now, fuel).value.chain;
    forall i | 1 <= i < |chain'|
      ensures chain'[i].index == i && chain'[i].previousHash == chain'[i - 1].hash
      ensures MinedAt(c, chain'[i], Difficulty)
    {
      if i < |l.chain| {
        assert chain'[i] == l.chain[i] && chain'[i - 1] == l.chain[i - 1];
      } else {
        assert chain'[i - 1] == l.chain[|l.chain| - 1];
      }
    }
    assert chain'[0] == l.chain[0];
  }

  /** Validation rejects every chain the ledger builds beyond the genesis
      block: because the nonce is bumped after hashing, block 1 never matches
      its re-computed hash, as long as SHA-256 tells apart the two texts
      involved. So `isChainValid()` stops at position 1 with a bad-hash
      report. */
  lemma MinedChainNeverValid(c: Crypto, chain: seq<Block>)
    requires WellFormedChain(c, chain) && |chain| >= 2
    requires chain[1].nonce >= 1 &&
      DistinctDigests(c, HashedText(c, chain[1].(nonce := chain[1].nonce - 1)), HashedText(c, chain[1]))
    ensures CheckBlock(c, chain[0], chain[1]) == Some(BadHash)
    ensures !ChainValid(c, chain)
  {
    MinedBlockFailsRehash(c, chain[1], Difficulty);
  }

  /** Validation also rejects any chain holding a transfer after the genesis
      block, since the signature check never answers `true` for a transaction
      with inputs. */
  lemma TransferBlockNeverValid(c: Crypto, chain: seq<Block>, i: nat, k: nat)
    requires 1 <= i < |chain| && k < |chain[i].data|
    requires |chain[i].data[k].inputs| > 0
    ensures !ChainValid(c, chain)
    ensures CheckBlock(c, chain[i - 1], chain[i]) in {Some(BadHash), Some(BadSignature)}
  {
    assert !VerifySignature(c, chain[i].data[k]).Truthy();
    assert !BlockAccepted(c, chain[i - 1], chain[i]);
  }

  /** A transfer admitted by `addTransaction` with the wallet's own key is
      signed correctly: each input's signature checks out over the identifier,
      so the signature check passes every input and falls off its loop. */
  lemma AddedTransferSignaturesCheck(c: Crypto, l: Ledger, w: Wallet, recipient: string, amount: int)
    requires DigestsAreHex(c)
    requires SignaturesCheck(c, w.keyPair) && c.publicKeyOf(w.keyPair) == Some(w.publicKey)
    requires w.publicKey != "" && forall m :: c.sign(w.keyPair, m) != ""
    requires AddTransaction(c, l, w, recipient, amount).Ok?
    requires |AddTransaction(c, l, w, recipient, amount).value.1.inputs| > 0
    ensures VerifySignature(c, AddTransaction(c, l, w, recipient, amount).value.1) == JsUndefined
  {
    var tx := AddTransaction(c, l, w, recipient, amount).value.1;
    assert |c.sha256(c.jsonInputs(Unsigned(tx.inputs)) + c.jsonOutputs(tx.outputs))| == 64;
    SignedTransferYieldsUndefined(c, w, tx);
  }

  /** A transfer of a non-positive amount that passes the balance check spends
      nothing: it has no inputs, so the signature check takes it for a mining
      reward, and a negative amount pays its absolute value to the sender as
      change out of nothing. */
  lemma NonPositiveAmountMints(c: Crypto, l: Ledger, w: Wallet, recipient: string, amount: int)
    requires amount <= 0 <= GetBalance(l.chain, w.publicKey)
    ensures AddTransaction(c, l, w, recipient, amount).Ok?
    ensures var tx := AddTransaction(c, l, w, recipient, amount).value.1;
      && tx.inputs == []
      && VerifySignature(c, tx) == JsTrue
      && (amount < 0 ==> tx.outputs == [Output(amount, recipient), Output(-amount, w.publicKey)])
  {
    var utxos := FindUTXOsForAddress(l.chain, w.publicKey);
    var tx := AddTransaction(c, l, w, recipient, amount).value.1;
    assert tx == BuildTransfer(c, utxos, w, recipient, amount);
    assert utxos[..0] == [] && SumAmounts(utxos[..0]) == 0;
    assert |tx.inputs| == 0;
  }

  /** The negative-amount path lowers the recipient's balance: once a block
      holding a miner's reward and a transfer of `amount < 0` with no inputs
      (what `NonPositiveAmountMints` builds) is mined, the recipient's balance
      drops by `-amount`, provided the transfer's key was not spent before. */
  lemma NegativePaymentLowersBalance(c: Crypto, chain: seq<Block>, b: Block, miner: string, tx: Tx,
                                     recipient: string, sender: string, amount: int)
    requires amount < 0 && miner != recipient && sender != recipient
    requires tx.inputs == [] && tx.outputs == [Output(amount, recipient), Output(-amount, sender)]
    requires b.data == [RewardTx(c, miner), tx]
    requires OutRef(tx.Ref(), 0) !in Scan(Transactions(chain), recipient).spent
    ensures GetBalance(chain + [b], recipient) == GetBalance(chain, recipient) + amount
    ensures GetBalance(chain + [b], recipient) < GetBalance(chain, recipient)
  {
    var txs := Transactions(chain);
    assert Transactions(chain + [b]) == txs + [RewardTx(c, miner), tx] by {
      assert (chain + [b])[..|chain|] == chain;
    }
    ScanStrangerThenPayment(txs, RewardTx(c, miner), tx, recipient);
  }

  /** Spending never lowers the sender's balance: after the sender's transfer
      is mined, the sender's balance is at least what it was before, because
      the spent outputs stay listed and the change is listed as well. */
  lemma SpendingNeverLowersBalance(c: Crypto, l: Ledger, w: Wallet, recipient: string, amount: int,
                                   miner: string, now: nat, fuel: nat)
    requires amount >= 0
    requires PaysNonNegative(l.pendingTransactions, w.publicKey)
    requires AddTransaction(c, l, w, recipient, amount).Ok?
    requires MinePendingTransactions(c, AddTransaction(c, l, w, recipient, amount).value.0, miner, now, fuel).Ok?
    ensures GetBalance(MinePendingTransactions(c, AddTransaction(c, l, w, recipient, amount).value.0,
                                               miner, now, fuel).value.chain, w.publicKey)
            >= GetBalance(l.chain, w.publicKey)
  {
    var (l1, tx) := AddTransaction(c, l, w, recipient, amount).value;
    var l2 := MinePendingTransactions(c, l1, miner, now, fuel).value;
    var b := l2.chain[|l1.chain|];
    assert l2.chain == l.chain + [b];
    var pool := l.pendingTransactions + [tx];
    var take := Min(BlockSize - 1, |pool|);
    assert b.data == [RewardTx(c, miner)] + pool[..take];
    TransferPaysNonNegative(c, l, w, recipient, amount);
    RewardAndPoolPayNonNegative(c, miner, pool, take, w.publicKey);
    BalanceNeverDrops(l.chain, b, w.publicKey);
  }

  /** The pool after a transfer of a non-negative amount pays the sender no
      negative amount if it did not before: the change is never negative. */
  lemma TransferPaysNonNegative(c: Crypto, l: Ledger, w: Wallet, recipient: string, amount: int)
    requires amount >= 0
    requires PaysNonNegative(l.pendingTransactions, w.publicKey)
    requires AddTransaction(c, l, w, recipient, amount).Ok?
    ensures PaysNonNegative(AddTransaction(c, l, w, recipient, amount).value.0.pendingTransactions, w.publicKey)
  {
    var (l1, tx) := AddTransaction(c, l, w, recipient, amount).value;
    var pool := l1.pendingTransactions;
    assert pool == l.pendingTransactions + [tx];
    forall k, j | 0 <= k < |pool| && 0 <= j < |pool[k].outputs| && pool[k].outputs[j].address == w.publicKey
      ensures pool[k].outputs[j].amount >= 0
    {
      if k < |l.pendingTransactions| {
        assert pool[k] == l.pendingTransactions[k];
      }
    }
  }

  /** A block holding the reward and a prefix of a pool that pays `address`
      nothing negative pays it nothing negative either. */
  lemma RewardAndPoolPayNonNegative(c: Crypto, miner: string, pool: seq<Tx>, take: nat, address: string)
    requires take <= |pool| && PaysNonNegative(pool, address)
    ensures PaysNonNegative([RewardTx(c, miner)] + pool[..take], address)
  {
    var data := [RewardTx(c, miner)] + pool[..take];
    forall k, j | 0 <= k < |data| && 0 <= j < |data[k].outputs| && data[k].outputs[j].address == address
      ensures data[k].outputs[j].amount >= 0
    {
      if k > 0 {
        assert data[k] == pool[k - 1];
      }
    }
  }

  /** The scan of the worked example's three transactions for the sender:
      the reward it spent is still listed, next to its change. */
  lemma ScenarioScanSender(ra: Tx, rb: Tx, tx: Tx, a: string, b: string)
    requires a != b
    requires ra.inputs == [] && ra.outputs == [Output(MiningReward, a)]
    requires rb.inputs == [] && rb.outputs == [Output(MiningReward, b)]
    requires |tx.inputs| == 1 && tx.inputs[0].address == a
    requires tx.inputs[0].transactionId == ra.Ref() && tx.inputs[0].outputIndex == 0
    requires tx.outputs == [Output(30, b), Output(70, a)]
    ensures Scan([ra, rb, tx], a).utxos == [Utxo(ra.Ref(), 0, 100, a), Utxo(tx.Ref(), 1, 70, a)]
  {
    var u := Utxo(ra.Ref(), 0, 100, a);
    var v := Utxo(tx.Ref(), 1, 70, a);
    var empty: set<OutRef> := {};
    assert SpentRefs(ra, a) == {} && SpentRefs(rb, a) == {};
    assert Scan([], a) == ScanState([], empty);
    ScanSnoc([], ra, a);
    assert [] + [ra] == [ra];
    assert EmitOutputs(ra, 1, empty, a) == [u];
    assert Scan([ra], a) == ScanState([u], empty);
    ScanSnoc([ra], rb, a);
    assert [ra] + [rb] == [ra, rb];
    assert EmitOutputs(rb, 1, empty, a) == [];
    assert Scan([ra, rb], a) == ScanState([u], empty);
    ScanSnoc([ra, rb], tx, a);
    assert [ra, rb] + [tx] == [ra, rb, tx];
    SpentRefsOfOne(tx, a);
    var spent := Scan([ra, rb], a).spent + SpentRefs(tx, a);
    assert spent == {OutRef(ra.Ref(), 0)};
    assert EmitOutputs(tx, 1, spent, a) == [];
    assert EmitOutputs(tx, 2, spent, a) == [v];
  }

  /** The scan of the worked example's three transactions for the recipient:
      its own mining reward and the payment. */
  lemma ScenarioScanRecipient(ra: Tx, rb: Tx, tx: Tx, a: string, b: string)
    requires a != b
    requires ra.inputs == [] && ra.outputs == [Output(MiningReward, a)]
    requires rb.inputs == [] && rb.outputs == [Output(MiningReward, b)]
    requires |tx.inputs| == 1 && tx.inputs[0].address == a
    requires tx.outputs == [Output(30, b), Output(70, a)]
    ensures Scan([ra, rb, tx], b).utxos == [Utxo(rb.Ref(), 0, 100, b), Utxo(tx.Ref(), 0, 30, b)]
  {
    var pay := Utxo(tx.Ref(), 0, 30, b);
    var rbU := Utxo(rb.Ref(), 0, 100, b);
    var empty: set<OutRef> := {};
    assert SpentRefs(ra, b) == {} && SpentRefs(rb, b) == {} && SpentRefs(tx, b) == {};
    assert Scan([], b) == ScanState([], empty);
    ScanSnoc([], ra, b);
    assert [] + [ra] == [ra];
    assert EmitOutputs(ra, 1, empty, b) == [];
    assert Scan([ra], b) == ScanState([], empty);
    ScanSnoc([ra], rb, b);
    assert [ra] + [rb] == [ra, rb];
    assert EmitOutputs(rb, 1, empty, b) == [rbU];
    assert Scan([ra, rb], b) == ScanState([rbU], empty);
    ScanSnoc([ra, rb], tx, b);
    assert [ra, rb] + [tx] == [ra, rb, tx];
    assert EmitOutputs(tx, 1, empty, b) == [pay];
    assert EmitOutputs(tx, 2, empty, b) == [pay];
  }

  /** The first step of the worked example: mining on a fresh ledger puts the
      reward alone in block 1. */
  lemma ScenarioFirstBlock(c: Crypto, a: string, t0: nat, t1: nat, f1: nat)
    requires MinePendingTransactions(c, NewLedger(c, t0), a, t1, f1).Ok?
    ensures var l1 := MinePendingTransactions(c, NewLedger(c, t0), a, t1, f1).value;
      && l1.pendingTransactions == []
      && Transactions(l1.chain) == [RewardTx(c, a)]
  {
    var l0 := NewLedger(c, t0);
    var l1 := MinePendingTransactions(c, l0, a, t1, f1).value;
    assert l1.chain == [l0.chain[0], l1.chain[1]];
    assert l1.chain[..1] == [l0.chain[0]];
    assert [l0.chain[0]][..0] == [];
    assert Transactions(l1.chain[..1]) == Transactions([]) + l0.chain[0].data;
  }

  /** The last step of the worked example: the transfer, mined by the
      recipient, joins the recipient's reward in block 2. */
  lemma ScenarioSecondBlock(c: Crypto, l2: Ledger, tx: Tx, b: string, t2: nat, f2: nat)
    requires l2.pendingTransactions == [tx]
    requires MinePendingTransactions(c, l2, b, t2, f2).Ok?
    ensures Transactions(MinePendingTransactions(c, l2, b, t2, f2).value.chain) ==
      Transactions(l2.chain) + [RewardTx(c, b), tx]
  {
    var l3 := MinePendingTransactions(c, l2, b, t2, f2).value;
    assert l3.chain[..|l2.chain|] == l2.chain;
  }

  /** A chain holding only A's mining reward lists that one output for A. */
  lemma ScenarioRewardOnly(c: Crypto, chain: seq<Block>, a: string)
    requires Transactions(chain) == [RewardTx(c, a)]
    ensures FindUTXOsForAddress(chain, a) == [Utxo(RewardTx(c, a).Ref(), 0, 100, a)]
    ensures GetBalance(chain, a) == 100
  {
    var ra := RewardTx(c, a);
    var u := Utxo(ra.Ref(), 0, 100, a);
    var empty: set<OutRef> := {};
    assert [ra][..0] == [];
    assert SpentRefs(ra, a) == {};
    assert EmitOutputs(ra, 1, empty, a) == [u];
    assert Scan([], a) == ScanState([], {});
    assert Scan([ra], a) == Step(Scan([], a), ra, a);
    assert empty + SpentRefs(ra, a) == empty;
    assert Step(ScanState([], empty), ra, a).utxos == [] + EmitOutputs(ra, 1, empty, a);
    assert Scan([ra], a).utxos == [u];
    assert [u][..0] == [] && [u][..1] == [u];
    assert SumAmounts([u]) == 100;
  }

  /** The middle step of the worked example: holding just the 100-unit reward,
      A can send 30; the transfer spends the reward and returns 70. */
  lemma ScenarioTransfer(c: Crypto, l1: Ledger, a: Wallet, b: string)
    requires Transactions(l1.chain) == [RewardTx(c, a.publicKey)]
    ensures GetBalance(l1.chain, a.publicKey) == 100
    ensures AddTransaction(c, l1, a, b, 30).Ok?
    ensures var tx := AddTransaction(c, l1, a, b, 30).value.1;
      && |tx.inputs| == 1
      && tx.inputs[0].address == a.publicKey
      && tx.inputs[0].transactionId == RewardTx(c, a.publicKey).Ref()
      && tx.inputs[0].outputIndex == 0
      && tx.outputs == [Output(30, b), Output(70, a.publicKey)]
  {
    ScenarioRewardOnly(c, l1.chain, a.publicKey);
    var u := Utxo(RewardTx(c, a.publicKey).Ref(), 0, 100, a.publicKey);
    var tx := BuildTransfer(c, [u], a, b, 30);
    assert [u][..0] == [] && [u][..1] == [u];
    assert SumAmounts([u]) == 100;
    assert |tx.inputs| == 1;
    assert AddTransaction(c, l1, a, b, 30).value.1 == tx;
  }

  /** The balances at the end of the worked example, read off the three
      transactions of the chain. */
  lemma ScenarioBalances(chain: seq<Block>, ra: Tx, rb: Tx, tx: Tx, a: string, b: string)
    requires a != b
    requires Transactions(chain) == [ra, rb, tx]
    requires ra.inputs == [] && ra.outputs == [Output(MiningReward, a)]
    requires rb.inputs == [] && rb.outputs == [Output(MiningReward, b)]
    requires |tx.inputs| == 1 && tx.inputs[0].address == a
    requires tx.inputs[0].transactionId == ra.Ref() && tx.inputs[0].outputIndex == 0
    requires tx.outputs == [Output(30, b), Output(70, a)]
    ensures GetBalance(chain, a) == 170 && GetBalance(chain, b) == 130
  {
    ScenarioScanSender(ra, rb, tx, a, b);
    var forA := [Utxo(ra.Ref(), 0, 100, a), Utxo(tx.Ref(), 1, 70, a)];
    assert FindUTXOsForAddress(chain, a) == forA;
    SumOfTwo(forA[0], forA[1]);
    ScenarioScanRecipient(ra, rb, tx, a, b);
    var forB := [Utxo(rb.Ref(), 0, 100, b), Utxo(tx.Ref(), 0, 30, b)];
    assert FindUTXOsForAddress(chain, b) == forB;
    SumOfTwo(forB[0], forB[1]);
  }

  /** A miner's reward transaction is the same every time it is built: no
      inputs, and an identifier computed from the miner alone. So once an
      input from the miner spends its reward, every later reward to the same
      miner has a key already spent and is never listed. */
  lemma RepeatedRewardNeverListed(c: Crypto, txs: seq<Tx>, a: string)
    requires OutRef(RewardTx(c, a).Ref(), 0) in SpentBy(txs, a)
    ensures Scan(txs + [RewardTx(c, a)], a).utxos == Scan(txs, a).utxos
  {
    AlreadySpentAddsNothing(txs, RewardTx(c, a), a);
  }

  /** A mines, sends 30 of the reward to B keeping 70, and mines again: the
      second reward, identical to the first, is not listed, while the first,
      though spent, is. */
  lemma ScenarioRewardAgain(ra: Tx, tx: Tx, a: string, b: string)
    requires a != b
    requires ra.inputs == [] && ra.outputs == [Output(MiningReward, a)]
    requires |tx.inputs| == 1 && tx.inputs[0].address == a
    requires tx.inputs[0].transactionId == ra.Ref() && tx.inputs[0].outputIndex == 0
    requires tx.outputs == [Output(30, b), Output(70, a)]
    ensures Scan([ra, tx, ra], a).utxos == [Utxo(ra.Ref(), 0, 100, a), Utxo(tx.Ref(), 1, 70, a)]
  {
    var u := Utxo(ra.Ref(), 0, 100, a);
    var v := Utxo(tx.Ref(), 1, 70, a);
    var empty: set<OutRef> := {};
    assert SpentRefs(ra, a) == {};
    assert Scan([], a) == ScanState([], empty);
    ScanSnoc([], ra, a);
    assert [] + [ra] == [ra];
    assert EmitOutputs(ra, 1, empty, a) == [u];
    assert Scan([ra], a) == ScanState([u], empty);
    ScanSnoc([ra], tx, a);
    assert [ra] + [tx] == [ra, tx];
    SpentRefsOfOne(tx, a);
    var spent := Scan([ra], a).spent + SpentRefs(tx, a);
    assert spent == {OutRef(ra.Ref(), 0)};
    assert EmitOutputs(tx, 1, spent, a) == [];
    assert EmitOutputs(tx, 2, spent, a) == [v];
    assert Scan([ra, tx], a).utxos == [u, v];
    assert OutRef(ra.Ref(), 0) in SpentBy([ra, tx], a) by {
      assert [ra, tx][1].inputs[0] == tx.inputs[0];
    }
    AlreadySpentAddsNothing([ra, tx], ra, a);
    assert [ra, tx] + [ra] == [ra, tx, ra];
  }

  lemma SumOfTwo(u: Utxo, v: Utxo)
    ensures SumAmounts([u, v]) == u.amount + v.amount
  {
    assert [u, v][..1] == [u] && [u][..0] == [];
    assert SumAmounts([u]) == u.amount;
  }

  /** The worked transfer example. A mines on a fresh ledger and is paid the
      100-unit reward; A sends 30 to B, which spends that reward and returns 70
      as change; B mines the block holding the transfer. The intended outcome
      is 70 for A and 130 for B. The scan as written still lists A's spent
      reward, so A's balance comes out at 170. */
  lemma TransferScenario(c: Crypto, a: Wallet, b: string, t0: nat, t1: nat, t2: nat, f1: nat, f2: nat,
                         l1: Ledger, l2: Ledger, tx: Tx, l3: Ledger)
    requires a.publicKey != b
    requires MinePendingTransactions(c, NewLedger(c, t0), a.publicKey, t1, f1) == Ok(l1)
    requires AddTransaction(c, l1, a, b, 30) == Ok((l2, tx))
    requires MinePendingTransactions(c, l2, b, t2, f2) == Ok(l3)
    ensures GetBalance(l1.chain, a.publicKey) == 100
    ensures tx.outputs == [Output(30, b), Output(70, a.publicKey)]
    ensures GetBalance(l3.chain, a.publicKey) == 170 && GetBalance(l3.chain, b) == 130
  {
    ScenarioFirstBlock(c, a.publicKey, t0, t1, f1);
    ScenarioTransfer(c, l1, a, b);
    var ra := RewardTx(c, a.publicKey);
    var rb := RewardTx(c, b);
    ScenarioSecondBlock(c, l2, tx, b, t2, f2);
    assert Transactions(l2.chain) == [ra];
    assert Transactions(l3.chain) == [ra, rb, tx];
    ScenarioBalances(l3.chain, ra, rb, tx, a.publicKey, b);
  }
}

=== FILE: types.dfy ===
/** The records the ledger stores (transactions and blocks) and the
    cryptographic primitives they are built with.

    JavaScript objects here may lack a field; a missing string field and the
    empty string are both falsy and every read of them in the ledger only asks
    whether they are truthy or equal to a non-empty address, so both are
    written `""`. A missing `inputs` or `outputs` array is written `[]`. */
module Types {
  import opened Js

  /** A reference to an earlier output, with the key that spends it. */
  datatype Input = Input(transactionId: string, outputIndex: nat, address: string, signature: string)

  /** A newly created amount payable to `address` (a hex public key). */
  datatype Output = Output(amount: int, address: string)

  /** A transaction. `id` is set by the constructor; transactions read back from
      storage may carry their identifier in `hash` instead. */
  datatype Tx = Tx(id: string, hash: string, inputs: seq<Input>, outputs: seq<Output>) {
    /** `tx.id || tx.hash`: the identifier every reader of a transaction uses. */
    function Ref(): string {
      if id != "" then id else hash
    }
  }

  /** A block. `timestamp` is the millisecond clock reading taken when the block
      was built; the block stores and hashes its decimal rendering. */
  datatype Block = Block(index: nat, previousHash: string, timestamp: nat, data: seq<Tx>, hash: string, nonce: nat)

  /** The primitives the ledger calls but does not implement (SHA-256, JSON
      serialisation and secp256k1 ECDSA), as uninterpreted functions.
      - `sha256(s)`: hex digest of `s`;
      - `jsonTxs`, `jsonInputs`, `jsonOutputs`: `JSON.stringify` of an array;
      - `publicKeyOf(priv)`: `ec.keyFromPrivate(priv, 'hex').getPublic('hex')`,
        `None` when the key is rejected;
      - `sign(priv, msg)`: `keyPair.sign(msg).toDER('hex')`;
      - `verify(pub, msg, sig)`: `ec.keyFromPublic(pub, 'hex').verify(msg, sig)`,
        `None` when parsing the key or checking the signature throws. */
  datatype Crypto = Crypto(
    sha256: string -> string,
    jsonTxs: seq<Tx> -> string,
    jsonInputs: seq<Input> -> string,
    jsonOutputs: seq<Output> -> string,
    publicKeyOf: string -> Option<string>,
    sign: (string, string) -> string,
    verify: (string, string, string) -> Option<bool>)

  /** SHA-256 hex digests are 64 characters long; in particular never empty. */
  ghost predicate DigestsAreHex(c: Crypto) {
    forall s :: |c.sha256(s)| == 64
  }

  /** SHA-256 tells the two messages `s` and `t` apart: when they differ, so
      do their digests. Stated for one pair, since no fixed-length digest
      separates every pair of messages. */
  ghost predicate DistinctDigests(c: Crypto, s: string, t: string) {
    s != t ==> c.sha256(s) != c.sha256(t)
  }

  /** ECDSA correctness for one key: whatever `priv` signs verifies against the
      public key derived from it. */
  ghost predicate SignaturesCheck(c: Crypto, priv: string) {
    c.publicKeyOf(priv).Some? &&
    forall msg :: c.verify(c.publicKeyOf(priv).value, msg, c.sign(priv, msg)) == Some(true)
  }
}

=== FILE: utxo.dfy ===
/** The unspent-output view of the chain (`findUTXOsForAddress`) and the
    balance derived from it (`getBalance`). Both are recomputed from the whole
    chain on every call. */
module Utxos {
  import opened Types

  /** One entry of the list `findUTXOsForAddress` returns. */
  datatype Utxo = Utxo(transactionId: string, outputIndex: nat, amount: int, address: string)

  /** The `${transactionId}:${outputIndex}` key of the spent set. Decimal
      indices contain no ':', so the string key and this pair determine each
      other. */
  datatype OutRef = OutRef(txId: string, index: nat)

  /** The two variables of the scan: the list built so far and the spent set. */
  datatype ScanState = ScanState(utxos: seq<Utxo>, spent: set<OutRef>)

  /** Every transaction of the chain, block after block. */
  function Transactions(chain: seq<Block>): seq<Tx> {
    if |chain| == 0 then [] else Transactions(chain[..|chain| - 1]) + chain[|chain| - 1].data
  }

  /** Flattening distributes over joining two runs of blocks, so the
      transactions of a longer chain extend those of its prefix. */
  lemma {:induction false} TransactionsAppend(xs: seq<Block>, ys: seq<Block>)
    ensures Transactions(xs + ys) == Transactions(xs) + Transactions(ys)
  {
    if |ys| > 0 {
      var n := |ys| - 1;
      assert (xs + ys)[..|xs + ys| - 1] == xs + ys[..n];
      TransactionsAppend(xs, ys[..n]);
    } else {
      assert xs + ys == xs;
    }
  }

  /** What the inner input loop adds to the spent set for one transaction: the
      references of the inputs whose address is `address`. */
  function SpentRefs(tx: Tx, address: string): set<OutRef> {
    set i | 0 <= i < |tx.inputs| && tx.inputs[i].address == address ::
      OutRef(tx.inputs[i].transactionId, tx.inputs[i].outputIndex)
  }

  /** A transaction with a single input from `address` spends just that
      input's reference. */
  lemma SpentRefsOfOne(tx: Tx, address: string)
    requires |tx.inputs| == 1 && tx.inputs[0].address == address
    ensures SpentRefs(tx, address) == {OutRef(tx.inputs[0].transactionId, tx.inputs[0].outputIndex)}
  {
  }

  /** `u` lists output `u.outputIndex` of `tx`, which pays `address`, under its
      key, and that key was not in `spent`. */
  predicate ListsOutput(tx: Tx, u: Utxo, address: string, spent: set<OutRef>) {
    u.outputIndex < |tx.outputs| && u.transactionId == tx.Ref() && u.address == address &&
    tx.outputs[u.outputIndex] == Output(u.amount, address) &&
    OutRef(tx.Ref(), u.outputIndex) !in spent
  }

  /** The `forEach` over the first `n` outputs of `tx`: one entry per output
      paying `address` whose key is not in `spent`, in index order. */
  function EmitOutputs(tx: Tx, n: nat, spent: set<OutRef>, address: string): (r: seq<Utxo>)
    requires n <= |tx.outputs|
    ensures |r| <= n
    ensures forall k :: 0 <= k < |r| ==> r[k].outputIndex < n && r[k].address == address
    ensures forall k, l :: 0 <= k < l < |r| ==> r[k].outputIndex < r[l].outputIndex
  {
    if n == 0 then []
    else
      var o := tx.outputs[n - 1];
      EmitOutputs(tx, n - 1, spent, address) +
      (if o.address == address && OutRef(tx.Ref(), n - 1) !in spent
       then [Utxo(tx.Ref(), n - 1, o.amount, address)] else [])
  }

  /** Each entry of `EmitOutputs` lists an unspent output paying `address`, and
      the entries come in increasing index order. */
  lemma {:induction false} EmitOutputsSound(tx: Tx, n: nat, spent: set<OutRef>, address: string)
    requires n <= |tx.outputs|
    ensures forall k :: 0 <= k < |EmitOutputs(tx, n, spent, address)| ==>
      ListsOutput(tx, EmitOutputs(tx, n, spent, address)[k], address, spent) &&
      EmitOutputs(tx, n, spent, address)[k].outputIndex < n
    ensures forall k, l :: 0 <= k < l < |EmitOutputs(tx, n, spent, address)| ==>
      EmitOutputs(tx, n, spent, address)[k].outputIndex < EmitOutputs(tx, n, spent, address)[l].outputIndex
  {
    if n > 0 {
      EmitOutputsSound(tx, n - 1, spent, address);
    }
  }

  /** Every unspent output paying `address` among the first `n` is listed. */
  lemma {:induction false} EmitOutputsComplete(tx: Tx, n: nat, spent: set<OutRef>, address: string, j: nat)
    requires j < n <= |tx.outputs|
    requires tx.outputs[j].address == address && OutRef(tx.Ref(), j) !in spent
    ensures Utxo(tx.Ref(), j, tx.outputs[j].amount, address) in EmitOutputs(tx, n, spent, address)
  {
    if j < n - 1 {
      EmitOutputsComplete(tx, n - 1, spent, address, j);
    }
  }

  /** One transaction of the scan: its inputs are recorded first, then its
      outputs are checked against the spent set as it now stands. */
  function Step(st: ScanState, tx: Tx, address: string): (r: ScanState)
    ensures st.spent <= r.spent
    ensures st.utxos <= r.utxos
    ensures forall k :: |st.utxos| <= k < |r.utxos| ==> ListsOutput(tx, r.utxos[k], address, r.spent)
  {
    var spent := st.spent + SpentRefs(tx, address);
    EmitOutputsSound(tx, |tx.outputs|, spent, address);
    ScanState(st.utxos + EmitOutputs(tx, |tx.outputs|, spent, address), spent)
  }

  /** The scan over a sequence of transactions, from an empty list and an empty
      spent set. Every listed entry pays the queried address. */
  function Scan(txs: seq<Tx>, address: string): (r: ScanState)
    ensures forall k :: 0 <= k < |r.utxos| ==> r.utxos[k].address == address
  {
    if |txs| == 0 then ScanState([], {})
    else Step(Scan(txs[..|txs| - 1], address), txs[|txs| - 1], address)
  }

  /** `findUTXOsForAddress(address)`. */
  function FindUTXOsForAddress(chain: seq<Block>, address: string): (r: seq<Utxo>)
    ensures forall k :: 0 <= k < |r| ==> r[k].address == address
  {
    Scan(Transactions(chain), address).utxos
  }

  function SumAmounts(us: seq<Utxo>): int {
    if |us| == 0 then 0 else SumAmounts(us[..|us| - 1]) + us[|us| - 1].amount
  }

  /** `getBalance(address)`: the amounts of the listed outputs, added up. No
      balance is negative unless some output pays the address a negative
      amount. */
  function GetBalance(chain: seq<Block>, address: string): (r: int)
    ensures PaysNonNegative(Transactions(chain), address) ==> r >= 0
  {
    var txs := Transactions(chain);
    assert PaysNonNegative(txs, address) ==> SumAmounts(FindUTXOsForAddress(chain, address)) >= 0 by {
      if PaysNonNegative(txs, address) {
        assert [] + txs == txs;
        ScanTotalNeverDrops([], txs, address);
      }
    }
    SumAmounts(FindUTXOsForAddress(chain, address))
  }

  // ---------------------------------------------------------------------
  // Properties of the scan

  /** Independent description of the spent set: every reference named by an
      input with address `address` anywhere in `txs`. */
  ghost function SpentBy(txs: seq<Tx>, address: string): set<OutRef> {
    set k, i | 0 <= k < |txs| && 0 <= i < |txs[k].inputs| && txs[k].inputs[i].address == address ::
      OutRef(txs[k].inputs[i].transactionId, txs[k].inputs[i].outputIndex)
  }

  /** Only inputs from `address` feed the spent set, and every one of them does. */
  lemma {:induction false} ScanSpentIsSpentBy(txs: seq<Tx>, address: string)
    ensures Scan(txs, address).spent == SpentBy(txs, address)
  {
    if |txs| > 0 {
      var n := |txs| - 1;
      ScanSpentIsSpentBy(txs[..n], address);
      forall r | r in SpentBy(txs, address)
        ensures r in Scan(txs, address).spent
      {
        var k, i :| 0 <= k < |txs| && 0 <= i < |txs[k].inputs| && txs[k].inputs[i].address == address &&
          r == OutRef(txs[k].inputs[i].transactionId, txs[k].inputs[i].outputIndex);
        if k < n {
          assert txs[..n][k] == txs[k];
        } else {
          assert r in SpentRefs(txs[n], address);
        }
      }
      forall r | r in Scan(txs, address).spent
        ensures r in SpentBy(txs, address)
      {
        if r in SpentRefs(txs[n], address) {
          var i :| 0 <= i < |txs[n].inputs| && txs[n].inputs[i].address == address &&
            r == OutRef(txs[n].inputs[i].transactionId, txs[n].inputs[i].outputIndex);
        } else {
          var k, i :| 0 <= k < n && 0 <= i < |txs[..n][k].inputs| && txs[..n][k].inputs[i].address == address &&
            r == OutRef(txs[..n][k].inputs[i].transactionId, txs[..n][k].inputs[i].outputIndex);
          assert txs[..n][k] == txs[k];
        }
      }
    }
  }

  /** The scan only ever appends: the list for a sequence of transactions is a
      prefix of the list for any extension of it. In particular a spend seen
      later never withdraws an entry already listed. */
  lemma {:induction false} ScanOnlyAppends(xs: seq<Tx>, ys: seq<Tx>, address: string)
    ensures Scan(xs, address).utxos <= Scan(xs + ys, address).utxos
  {
    if |ys| > 0 {
      var m := |ys| - 1;
      assert (xs + ys)[..|xs + ys| - 1] == xs + ys[..m];
      ScanOnlyAppends(xs, ys[..m], address);
    } else {
      assert xs + ys == xs;
    }
  }

  /** What transaction `k` of the scan contributes: exactly its outputs paying
      `address` whose keys are not spent by `address` in transactions `0..k`
      (itself included, since its inputs are recorded before its outputs). */
  lemma ContributionOf(txs: seq<Tx>, k: nat, address: string)
    requires k < |txs|
    ensures Scan(txs[..k + 1], address).utxos ==
      Scan(txs[..k], address).utxos +
      EmitOutputs(txs[k], |txs[k].outputs|, SpentBy(txs[..k + 1], address), address)
  {
    assert txs[..k + 1][..k] == txs[..k];
    ScanSpentIsSpentBy(txs[..k + 1], address);
  }

  /** An output is left out only when its key is already spent when the scan
      reaches it: an output paying `address` that no input from `address` in
      transactions `0..k` spends is listed, whatever later transactions spend. */
  lemma UnspentSoFarIsListed(txs: seq<Tx>, k: nat, j: nat, address: string)
    requires k < |txs| && j < |txs[k].outputs|
    requires txs[k].outputs[j].address == address
    requires OutRef(txs[k].Ref(), j) !in SpentBy(txs[..k + 1], address)
    ensures Utxo(txs[k].Ref(), j, txs[k].outputs[j].amount, address) in Scan(txs, address).utxos
  {
    var u := Utxo(txs[k].Ref(), j, txs[k].outputs[j].amount, address);
    var front := txs[..k + 1];
    ListedByItsTransaction(txs, k, j, address);
    assert txs == front + txs[k + 1..];
    ScanOnlyAppends(front, txs[k + 1..], address);
  }

  /** The scan up to and including transaction `k` lists an output of `k`
      paying `address` whose key no input from `address` in `0..k` spends. */
  lemma ListedByItsTransaction(txs: seq<Tx>, k: nat, j: nat, address: string)
    requires k < |txs| && j < |txs[k].outputs|
    requires txs[k].outputs[j].address == address
    requires OutRef(txs[k].Ref(), j) !in SpentBy(txs[..k + 1], address)
    ensures Utxo(txs[k].Ref(), j, txs[k].outputs[j].amount, address) in Scan(txs[..k + 1], address).utxos
  {
    var front := txs[..k + 1];
    ContributionOf(txs, k, address);
    EmitOutputsComplete(txs[k], |txs[k].outputs|, SpentBy(front, address), address, j);
  }

  /** A transaction each of whose outputs paying `address` has a key that
      `address` already spent earlier in the scan adds nothing to the list. */
  lemma AlreadySpentAddsNothing(txs: seq<Tx>, tx: Tx, address: string)
    requires forall j :: 0 <= j < |tx.outputs| && tx.outputs[j].address == address ==>
      OutRef(tx.Ref(), j) in SpentBy(txs, address)
    ensures Scan(txs + [tx], address).utxos == Scan(txs, address).utxos
  {
    var st := Scan(txs, address);
    assert (txs + [tx])[..|txs|] == txs;
    ScanSpentIsSpentBy(txs, address);
    var r := Step(st, tx, address);
    assert Scan(txs + [tx], address) == r;
    var k := |st.utxos|;
    assert k < |r.utxos| ==> ListsOutput(tx, r.utxos[k], address, r.spent);
    assert |r.utxos| == k;
  }

  /** Conversely, an output whose key an input from `address` in transactions
      `0..k` spends is not what transaction `k` contributes. */
  lemma SpentSoFarIsSkipped(txs: seq<Tx>, k: nat, j: nat, address: string)
    requires k < |txs| && j < |txs[k].outputs|
    requires OutRef(txs[k].Ref(), j) in SpentBy(txs[..k + 1], address)
    ensures forall u :: u in EmitOutputs(txs[k], |txs[k].outputs|, SpentBy(txs[..k + 1], address), address) ==>
      u.outputIndex != j
  {
    EmitOutputsSound(txs[k], |txs[k].outputs|, SpentBy(txs[..k + 1], address), address);
  }

  // ---------------------------------------------------------------------
  // Properties of the balance

  lemma {:induction false} SumAmountsAppend(us: seq<Utxo>, vs: seq<Utxo>)
    ensures SumAmounts(us + vs) == SumAmounts(us) + SumAmounts(vs)
  {
    if |vs| > 0 {
      var m := |vs| - 1;
      assert (us + vs)[..|us + vs| - 1] == us + vs[..m];
      assert (us + vs)[|us + vs| - 1] == vs[m];
      SumAmountsAppend(us, vs[..m]);
    } else {
      assert us + vs == us;
    }
  }

  lemma {:induction false} SumAmountsNonNegative(us: seq<Utxo>)
    requires forall k :: 0 <= k < |us| ==> us[k].amount >= 0
    ensures SumAmounts(us) >= 0
  {
    if |us| > 0 {
      SumAmountsNonNegative(us[..|us| - 1]);
    }
  }

  /** Outputs paying `address` in `txs` carry no negative amount. */
  ghost predicate PaysNonNegative(txs: seq<Tx>, address: string) {
    forall k, j :: 0 <= k < |txs| && 0 <= j < |txs[k].outputs| && txs[k].outputs[j].address == address ==>
      txs[k].outputs[j].amount >= 0
  }

  /** Appending transactions never lowers the scanned total for `address` as
      long as they pay it no negative amount: spending an output does not
      remove it from the list. */
  lemma {:induction false} ScanTotalNeverDrops(xs: seq<Tx>, ys: seq<Tx>, address: string)
    requires PaysNonNegative(ys, address)
    ensures SumAmounts(Scan(xs + ys, address).utxos) >= SumAmounts(Scan(xs, address).utxos)
  {
    if |ys| > 0 {
      var m := |ys| - 1;
      PaysNonNegativeSplit(ys, address);
      ScanTotalNeverDrops(xs, ys[..m], address);
      ScanAppendLast(xs, ys, address);
      StepNeverLowersTotal(Scan(xs + ys[..m], address), ys[m], address);
    } else {
      assert xs + ys == xs;
    }
  }

  /** A transaction none of whose first `n` outputs pays `address`
      contributes nothing. */
  lemma {:induction false} EmitOutputsNone(tx: Tx, n: nat, spent: set<OutRef>, address: string)
    requires n <= |tx.outputs|
    requires forall j :: 0 <= j < n ==> tx.outputs[j].address != address
    ensures EmitOutputs(tx, n, spent, address) == []
  {
    if n > 0 {
      EmitOutputsNone(tx, n - 1, spent, address);
    }
  }

  /** A transaction with no input from `address` and no output paying it
      leaves the scan as it was. */
  lemma StepStranger(st: ScanState, tx: Tx, address: string)
    requires forall i :: 0 <= i < |tx.inputs| ==> tx.inputs[i].address != address
    requires forall j :: 0 <= j < |tx.outputs| ==> tx.outputs[j].address != address
    ensures Step(st, tx, address) == st
  {
    assert SpentRefs(tx, address) == {};
    assert st.spent + {} == st.spent;
    EmitOutputsNone(tx, |tx.outputs|, st.spent, address);
    assert st.utxos + [] == st.utxos;
  }

  /** A transaction with no input from `address` whose first of two outputs
      pays `address` under a key not yet spent, and whose second does not, 
      appends exactly that output. */
  lemma StepPaysFirstOfTwo(st: ScanState, tx: Tx, address: string)
    requires forall i :: 0 <= i < |tx.inputs| ==> tx.inputs[i].address != address
    requires |tx.outputs| == 2 && tx.outputs[0].address == address && tx.outputs[1].address != address
    requires OutRef(tx.Ref(), 0) !in st.spent
    ensures Step(st, tx, address).utxos == st.utxos + [Utxo(tx.Ref(), 0, tx.outputs[0].amount, address)]
  {
    assert SpentRefs(tx, address) == {};
    assert st.spent + {} == st.spent;
    assert EmitOutputs(tx, 0, st.spent, address) == [];
    assert EmitOutputs(tx, 2, st.spent, address) == [Utxo(tx.Ref(), 0, tx.outputs[0].amount, address)];
  }

  /** Scanning a stranger's transaction and then one that pays `address` the
      first of two outputs raises the listed total by that output's amount. */
  lemma ScanStrangerThenPayment(txs: seq<Tx>, other: Tx, tx: Tx, address: string)
    requires forall i :: 0 <= i < |other.inputs| ==> other.inputs[i].address != address
    requires forall j :: 0 <= j < |other.outputs| ==> other.outputs[j].address != address
    requires forall i :: 0 <= i < |tx.inputs| ==> tx.inputs[i].address != address
    requires |tx.outputs| == 2 && tx.outputs[0].address == address && tx.outputs[1].address != address
    requires OutRef(tx.Ref(), 0) !in Scan(txs, address).spent
    ensures SumAmounts(Scan(txs + [other, tx], address).utxos) ==
      SumAmounts(Scan(txs, address).utxos) + tx.outputs[0].amount
  {
    var st := Scan(txs, address);
    var after := st.utxos + [Utxo(tx.Ref(), 0, tx.outputs[0].amount, address)];
    assert txs + [other, tx] == (txs + [other]) + [tx];
    assert Scan(txs + [other], address) == st by {
      ScanSnoc(txs, other, address);
      StepStranger(st, other, address);
    }
    assert Scan((txs + [other]) + [tx], address).utxos == after by {
      ScanSnoc(txs + [other], tx, address);
      StepPaysFirstOfTwo(st, tx, address);
    }
    assert after[..|st.utxos|] == st.utxos;
  }

  /** Scanning one more transaction is one more step. */
  lemma ScanSnoc(txs: seq<Tx>, tx: Tx, address: string)
    ensures Scan(txs + [tx], address) == Step(Scan(txs, address), tx, address)
  {
    assert (txs + [tx])[..|txs|] == txs;
  }

  /** Scanning `xs + ys` ends with the step for the last transaction of `ys`. */
  lemma ScanAppendLast(xs: seq<Tx>, ys: seq<Tx>, address: string)
    requires |ys| > 0
    ensures Scan(xs + ys, address) == Step(Scan(xs + ys[..|ys| - 1], address), ys[|ys| - 1], address)
  {
    assert (xs + ys)[..|xs + ys| - 1] == xs + ys[..|ys| - 1];
  }

  /** No negative payment in `ys` means none in its front and none in its last
      transaction. */
  lemma PaysNonNegativeSplit(ys: seq<Tx>, address: string)
    requires |ys| > 0 && PaysNonNegative(ys, address)
    ensures PaysNonNegative(ys[..|ys| - 1], address)
    ensures var tx := ys[|ys| - 1];
      forall j :: 0 <= j < |tx.outputs| && tx.outputs[j].address == address ==> tx.outputs[j].amount >= 0
  {
    var m := |ys| - 1;
    forall k, j | 0 <= k < m && 0 <= j < |ys[..m][k].outputs| && ys[..m][k].outputs[j].address == address
      ensures ys[..m][k].outputs[j].amount >= 0
    {
      assert ys[..m][k] == ys[k];
    }
  }

  /** One step of the scan adds no negative amount when the transaction pays
      `address` none. */
  lemma StepNeverLowersTotal(st: ScanState, tx: Tx, address: string)
    requires forall j :: 0 <= j < |tx.outputs| && tx.outputs[j].address == address ==> tx.outputs[j].amount >= 0
    ensures SumAmounts(Step(st, tx, address).utxos) >= SumAmounts(st.utxos)
  {
    var r := Step(st, tx, address);
    var e := r.utxos[|st.utxos|..];
    assert r.utxos == st.utxos + e;
    SumAmountsAppend(st.utxos, e);
    assert forall i :: 0 <= i < |e| ==> e[i].amount >= 0 by {
      forall i | 0 <= i < |e| ensures e[i].amount >= 0 {
        assert e[i] == r.utxos[|st.utxos| + i];
        assert ListsOutput(tx, e[i], address, r.spent);
      }
    }
    SumAmountsNonNegative(e);
  }

  /** Mining a block that pays `address` nothing negative never lowers its
      balance, even when the block spends its outputs. */
  lemma BalanceNeverDrops(chain: seq<Block>, b: Block, address: string)
    requires PaysNonNegative(b.data, address)
    ensures GetBalance(chain + [b], address) >= GetBalance(chain, address)
  {
    assert (chain + [b])[..|chain + [b]| - 1] == chain;
    ScanTotalNeverDrops(Transactions(chain), b.data, address);
  }
}

=== FILE: wallet.dfy ===
/** The wallet: a secp256k1 key pair whose hex public key is the address, the
    signing call the ledger uses, and the static signature check applied to
    every transaction of a block during chain validation. */
module Wallets {
  import opened Js
  import opened Types

  /** `keyPair` is the private key the wallet signs with; `publicKey` is what
      `getPublicKey()` returns. Generating a fresh random pair is left out. */
  datatype Wallet = Wallet(keyPair: string, publicKey: string)

  /** `sign(dataHash)`: the message is signed as given, without hashing it
      again, so the signature checks out over `dataHash` itself under the
      wallet's public key (when that key belongs to the private key and
      ECDSA works for it). */
  function Sign(c: Crypto, w: Wallet, dataHash: string): (sig: string)
    ensures SignaturesCheck(c, w.keyPair) && c.publicKeyOf(w.keyPair) == Some(w.publicKey) ==>
      c.verify(w.publicKey, dataHash, sig) == Some(true)
  {
    c.sign(w.keyPair, dataHash)
  }

  /** One input passes when it carries a signature and an address and the
      signature checks out over `msg` under that address read as a public key;
      a parse failure or a throwing check counts as failure. */
  predicate InputPasses(c: Crypto, msg: string, input: Input) {
    input.signature != "" && input.address != "" &&
    c.verify(input.address, msg, input.signature) == Some(true)
  }

  /** The `for` loop over the inputs: `false` at the first input that fails,
      and falling off the end (`undefined`) when every input passes. */
  function VerifyInputs(c: Crypto, msg: string, inputs: seq<Input>): (r: JsValue)
    ensures r != JsTrue
    ensures r == JsUndefined <==> forall i :: 0 <= i < |inputs| ==> InputPasses(c, msg, inputs[i])
    ensures r == JsFalse <==> exists i :: 0 <= i < |inputs| && !InputPasses(c, msg, inputs[i])
  {
    if |inputs| == 0 then JsUndefined
    else if inputs[0].signature == "" || inputs[0].address == "" then JsFalse
    else match c.verify(inputs[0].address, msg, inputs[0].signature)
      case None => JsFalse
      case Some(ok) =>
        if !ok then JsFalse
        else
          var rest := VerifyInputs(c, msg, inputs[1..]);
          assert forall i :: 1 <= i < |inputs| ==> inputs[i] == inputs[1..][i - 1];
          rest
  }

  /** `Wallet.verifySignature(transaction)`. A transaction without inputs (a
      mining reward) passes outright; one with inputs is rejected when it has
      no identifier or some input fails, and otherwise yields `undefined`, so
      it is never `true`. */
  function VerifySignature(c: Crypto, tx: Tx): (r: JsValue)
    ensures r == JsTrue <==> |tx.inputs| == 0
    ensures r == JsUndefined <==>
      |tx.inputs| > 0 && tx.Ref() != "" &&
      forall i :: 0 <= i < |tx.inputs| ==> InputPasses(c, tx.Ref(), tx.inputs[i])
    ensures |tx.inputs| > 0 && tx.Ref() == "" ==> r == JsFalse
  {
    if |tx.inputs| == 0 then JsTrue
    else if tx.Ref() == "" then JsFalse
    else VerifyInputs(c, tx.Ref(), tx.inputs)
  }

  /** Signing round trip: when every input is signed by `w` over the
      transaction's identifier, names `w`'s address, and that address is the
      public key of `w`'s private key, the check finds every input good, and
      therefore answers `undefined`. */
  lemma {:induction false} SignedTransferYieldsUndefined(c: Crypto, w: Wallet, tx: Tx)
    requires SignaturesCheck(c, w.keyPair)
    requires c.publicKeyOf(w.keyPair) == Some(w.publicKey)
    requires |tx.inputs| > 0 && tx.id != "" && w.publicKey != ""
    requires forall i :: 0 <= i < |tx.inputs| ==>
      tx.inputs[i].address == w.publicKey && tx.inputs[i].signature == Sign(c, w, tx.id)
    requires forall m :: c.sign(w.keyPair, m) != ""
    ensures VerifySignature(c, tx) == JsUndefined
  {
    forall i | 0 <= i < |tx.inputs|
      ensures InputPasses(c, tx.Ref(), tx.inputs[i])
    {
      assert c.verify(c.publicKeyOf(w.keyPair).value, tx.id, c.sign(w.keyPair, tx.id)) == Some(true);
    }
  }
}

=== FILE: wallet_routes.dfy ===
/** The wallet endpoints that reach the ledger on behalf of the signed-in
    user: submitting a transfer and listing the user's history. The user's
    wallet address comes from the session and is a parameter here. */
module WalletRoutes {
  import opened Js
  import opened Types
  import opened Wallets
  import opened Utxos
  import opened Ledgers
  import opened History

  const Created: nat := 201
  const BadRequest: nat := 400
  const Forbidden: nat := 403

  /** The HTTP status and the ledger after the request. */
  datatype Reply = Reply(status: nat, ledger: Ledger)

  /** `POST /transaction`: 400 when the private key, the recipient or the
      amount is missing (or falsy), 400 when the private key is rejected, 403
      when the key's public key is not the signed-in user's address, 400 when
      `addTransaction` fails, and 201 with the transfer added to the pending
      pool otherwise. Every refusal leaves the ledger as it was; the store is
      taken to accept every write, so no refusal comes after the pool grew. */
  function PostTransaction(c: Crypto, l: Ledger, sender: string, privateKey: string, recipient: string, amount: int)
    : (r: Reply)
    ensures r.status == Created <==>
      && privateKey != "" && recipient != "" && amount != 0
      && c.publicKeyOf(privateKey) == Some(sender)
      && GetBalance(l.chain, sender) >= amount
    ensures r.status == Forbidden <==>
      && privateKey != "" && recipient != "" && amount != 0
      && c.publicKeyOf(privateKey).Some? && c.publicKeyOf(privateKey).value != sender
    ensures r.status != Created ==> r.status == BadRequest || r.status == Forbidden
    ensures r.status != Created ==> r.ledger == l
    ensures r.ledger != l ==> c.publicKeyOf(privateKey) == Some(sender)
    ensures r.status == Created ==>
      && r.ledger.chain == l.chain
      && |r.ledger.pendingTransactions| == |l.pendingTransactions| + 1
      && r.ledger.pendingTransactions[..|l.pendingTransactions|] == l.pendingTransactions
      && r.ledger.pendingTransactions[|l.pendingTransactions|] ==
           BuildTransfer(c, FindUTXOsForAddress(l.chain, sender), Wallet(privateKey, sender), recipient, amount)
  {
    if privateKey == "" || recipient == "" || amount == 0 then Reply(BadRequest, l)
    else match c.publicKeyOf(privateKey)
      case None => Reply(BadRequest, l)
      case Some(publicKey) =>
        if publicKey != sender then Reply(Forbidden, l)
        else match AddTransaction(c, l, Wallet(privateKey, publicKey), recipient, amount)
          case Err(_) => Reply(BadRequest, l)
          case Ok((l', _)) =>
            assert |l'.pendingTransactions| > |l.pendingTransactions|;
            Reply(Created, l')
  }

  /** Every transfer the endpoint admits spends only outputs it found paying
      the signed-in user, and signs each input as that user. */
  lemma AdmittedTransferSpendsOwnOutputs(c: Crypto, l: Ledger, sender: string, privateKey: string,
                                         recipient: string, amount: int)
    requires PostTransaction(c, l, sender, privateKey, recipient, amount).status == Created
    ensures var tx := PostTransaction(c, l, sender, privateKey, recipient, amount).ledger.pendingTransactions[|l.pendingTransactions|];
      forall i :: 0 <= i < |tx.inputs| ==>
        && tx.inputs[i].address == sender
        && tx.inputs[i].signature == c.sign(privateKey, tx.id)
        && Utxo(tx.inputs[i].transactionId, tx.inputs[i].outputIndex,
                FindUTXOsForAddress(l.chain, sender)[i].amount, sender) in FindUTXOsForAddress(l.chain, sender)
  {
    var utxos := FindUTXOsForAddress(l.chain, sender);
    var tx := PostTransaction(c, l, sender, privateKey, recipient, amount).ledger.pendingTransactions[|l.pendingTransactions|];
    assert tx == BuildTransfer(c, utxos, Wallet(privateKey, sender), recipient, amount);
    forall i | 0 <= i < |tx.inputs|
      ensures Utxo(tx.inputs[i].transactionId, tx.inputs[i].outputIndex, utxos[i].amount, sender) in utxos
    {
      assert utxos[i].address == sender;
    }
  }

  /** `GET /history`: the signed-in user's entries over the stored chain,
      newest first, entries of equal timestamp in chain order. */
  function GetHistory(chain: seq<Block>, address: string): (r: seq<Entry>)
    ensures NewestFirst(r)
    ensures multiset(r) == multiset(CollectEntries(chain, address))
    ensures forall t :: WithTimestamp(r, t) == WithTimestamp(CollectEntries(chain, address), t)
    ensures forall i, k :: 0 <= i < |chain| && 0 <= k < |chain[i].data| && Touches(chain[i].data[k], address) ==>
      Classify(chain[i].data[k], address, chain[i].timestamp).value in r
    ensures forall e :: e in r ==> EntryInChain(chain, address, e)
    ensures |r| == TouchingTransactions(chain, address)
  {
    var entries := CollectEntries(chain, address);
    SortKeepsAllTies(entries);
    var r := SortNewestFirst(entries);
    assert forall e :: e in entries <==> e in r by {
      forall e ensures e in entries <==> e in r {
        assert e in entries <==> e in multiset(entries);
        assert e in r <==> e in multiset(r);
      }
    }
    assert |r| == |entries| by {
      assert |multiset(r)| == |multiset(entries)|;
    }
    r
  }

  /** The history lists each entry once per transaction of the chain that is
      classified as it. */
  lemma GetHistoryMultiplicity(chain: seq<Block>, address: string, e: Entry)
    ensures multiset(GetHistory(chain, address))[e] == ChainClassifiedAs(chain, address, e)
  {
    CollectEntriesMultiplicity(chain, address, e);
  }

  lemma SortKeepsAllTies(s: seq<Entry>)
    ensures forall t :: WithTimestamp(SortNewestFirst(s), t) == WithTimestamp(s, t)
  {
    forall t ensures WithTimestamp(SortNewestFirst(s), t) == WithTimestamp(s, t) {
      SortKeepsTies(s, t);
    }
  }

  /** How a transfer admitted from a wallet reads in the two histories, when
      it pays someone else and returns change: the sender sees a send of the
      amount to the recipient, the recipient a receive of the amount from the
      sender. */
  lemma TransferHistoryEntries(c: Crypto, l: Ledger, sender: string, privateKey: string,
                               recipient: string, amount: int, timestamp: nat)
    requires recipient != sender && sender != ""
    requires PostTransaction(c, l, sender, privateKey, recipient, amount).status == Created
    requires var tx := PostTransaction(c, l, sender, privateKey, recipient, amount).ledger.pendingTransactions[|l.pendingTransactions|];
      |tx.inputs| > 0
    ensures var tx := PostTransaction(c, l, sender, privateKey, recipient, amount).ledger.pendingTransactions[|l.pendingTransactions|];
      && Classify(tx, sender, timestamp) == Some(Entry(tx.id, timestamp, Send, recipient, amount, Confirmed))
      && Classify(tx, recipient, timestamp) == Some(Entry(tx.id, timestamp, Receive, sender, amount, Confirmed))
  {
    var tx := PostTransaction(c, l, sender, privateKey, recipient, amount).ledger.pendingTransactions[|l.pendingTransactions|];
    var utxos := FindUTXOsForAddress(l.chain, sender);
    assert tx == BuildTransfer(c, utxos, Wallet(privateKey, sender), recipient, amount);
    assert tx.inputs[0].address == sender;
    assert IsSender(tx, sender);
    assert tx.outputs[0] == Output(amount, recipient);
    assert IsRecipient(tx, recipient);
    assert !IsSender(tx, recipient);
    // identifiers are digests; the entry's hash is `tx.id || tx.hash`
    assert tx.Ref() == tx.id by {
      assert tx.hash == "";
    }
  }
}
